=== FILE: README.md ===
# Otelify generators in Dafny

A model of the content generators behind the Otelify MCP server and its HTTP
routes. The server hands a coding agent three Markdown documents:

- the **Edge Delta streaming guide** (`lib/edge-delta.ts`). A deployment name
  and an OTLP protocol are resolved against a two-row endpoint table. The
  resolved values are then interpolated into a fixed guide.
- the **first-step plan** (`lib/plan.ts`). Six optional inputs get their own
  defaults. Two of them are rendered as bullet lists.
- the **checklist** (`lib/checklist.ts`). Two links are derived from the
  deployment's public host, inside seven numbered phases of unchecked tasks.

The routes (`app/api/*/route.ts`) turn query parameters or MCP tool arguments
into the generators' inputs.

Each generator is modelled as a pure function from its options to a `string`.
Every document is a template literal. `Template.Render` models such a literal
as a sequence of lines joined by `"\n"`. Each line is either fixed text or one
interpolated value between a fixed lead and a fixed tail.

The fixed prose is a record (`GuideText`, `PlanText`, `ChecklistText`). Each
document function takes this record as a parameter:

- The generator itself, such as `EdgeDelta.GenerateEdgeDeltaGuide`, is that
  function applied to a constant holding the source's exact text. The guide
  resolves its endpoint with the corrected lookup described under
  "## Findings".
- The lemmas hold for every text. They talk about the interpolated values, the
  headings and the line structure. They never depend on the wording of the
  prose.

Modules:

| module | file | models |
|---|---|---|
| `Wrappers` | wrappers.dfy | optional values. `GetOr` models both destructuring defaults and `??`. `Truthy` models JavaScript truthiness of an optional string. |
| `Text` | text.dfy | `startsWith`, `includes`, `join`, `split` on one character, `trim` (the ECMAScript white-space set) and ASCII case mapping |
| `Template` | template.dfy | template literals as filled-in lines |
| `Query` | query.dfy | `URLSearchParams.get` over decoded name/value pairs |
| `EdgeDelta` | edge_delta.dfy | `lib/edge-delta.ts` |
| `Plan` | plan.dfy | `lib/plan.ts` |
| `Checklist` | checklist.dfy | `lib/checklist.ts` |
| `EdgeDeltaRoute` | edge_delta_route.dfy | `app/api/edge-delta/route.ts` |
| `PlanRoute` | plan_route.dfy | `app/api/plan/route.ts` |
| `McpRoute` | mcp_route.dfy | the data-store normalisation and checklist URL in `app/api/mcp/route.ts` |

`generateFirstStepPlan` puts `- ` in front of every data store
(lib/plan.ts:28-29), so a store given as `- PostgreSQL` renders as
`- - PostgreSQL`. See `Plan.PreBulletedStoreDoubled` and
`PlanRoute.RouteDataStores`.

## Model

| member | source | states |
|---|---|---|
| EdgeDelta.EndpointRecord | lib/edge-delta.ts:10-26 | The row is the one stored under the lower-cased deployment name. A name the table lacks falls back to the production row. The result is always one of the two rows. |
| EdgeDelta.Endpoint | lib/edge-delta.ts:25-28 | The resolved endpoint is always one of the four strings in the table. |
| EdgeDelta.EndpointCaseInsensitive | lib/edge-delta.ts:25-26 | A deployment selects the staging row if and only if it equals `staging` ignoring case. Any casing of `production` selects the production row. |
| EdgeDelta.GuideHasHeadings | lib/edge-delta.ts:30-100 | Every guide contains its title and its five section headings, whatever the options. |
| EdgeDelta.GuideDisplaysDeployment | lib/edge-delta.ts:21-100 | The heading, `OTEL_SERVICE_NAME` and the closing line show the deployment exactly as the caller gave it, or `production` when none is given. |
| EdgeDelta.GuideShowsEndpoint | lib/edge-delta.ts:25-66 | The endpoint resolved from the deployment and the protocol is written into the header, into `OTEL_EXPORTER_OTLP_ENDPOINT` and into the collector exporter. |
| EdgeDelta.GuideShowsProtocol | lib/edge-delta.ts:23-48 | The header shows `HTTP` for http and `GRPC` otherwise, including when no protocol is given. `OTEL_EXPORTER_OTLP_PROTOCOL` is `http/protobuf` exactly for http, else `grpc`. |
| EdgeDelta.DefaultGuide | lib/edge-delta.ts:10-34 | With no options, the guide targets `production` with the endpoint `otel.ingest.edgedelta.com:443`. |
| EdgeDelta.StagingGuide | lib/edge-delta.ts:15-34 | Any casing of `staging` is displayed as given, and the staging endpoint of the chosen protocol is configured. |
| EdgeDelta.FallbackGuide | lib/edge-delta.ts:25-34 | An unknown deployment is displayed verbatim, while the production endpoint of the chosen protocol is configured. |
| EdgeDelta.StagingHttpGuide | lib/edge-delta.ts:17-28 | Staging over http puts `https://otel.staging.edgedelta.com` into the guide, for every text. |
| EdgeDelta.SourceGuideStagingHttp | lib/test.ts:30-34 | The guide generated with the source's own text contains `https://otel.staging.edgedelta.com` for staging over http. |
| EdgeDelta.UnknownDeploymentResolves | lib/edge-delta.ts:25-28 | `unknown-env` over gRPC keeps its name and resolves to production's gRPC endpoint. |
| EdgeDelta.EndpointAsWritten | lib/edge-delta.ts:10-26 | The lookup as written agrees with `Endpoint` on every name except those that lower-case to an inherited object member. On those it yields a string outside the table. |
| EdgeDelta.PrototypeKeyCounterexample | lib/edge-delta.ts:25-28 | For `Constructor` over gRPC, the lookup as written gives `undefined`. The corrected lookup gives production's gRPC endpoint. |
| Plan.FrameworkLabel | lib/plan.ts:24 | The label is empty exactly when the framework is absent or empty. Otherwise it is exactly ` (`, the framework and `)`. |
| Plan.ShownSignals | lib/plan.ts:25-27 | The list of signals shown is never empty. |
| Plan.BulletLinesSplit | lib/plan.ts:25-29 | For a non-empty list whose items hold no line break, the bullet list has exactly one line per item, in input order, each being `- ` followed by the item. |
| Plan.SignalListRendering | lib/plan.ts:21-27 | When no signal contains a line break, the signal list's lines are the shown signals behind `- `, one line each, in order. |
| Plan.DefaultSignalList | lib/plan.ts:14-27 | Without signals, the list is exactly `- HTTP requests\n- background jobs`. |
| Plan.DataStoreListRendering | lib/plan.ts:28-30 | No stores gives the single default line. Otherwise, when no store contains a line break, every store gets a `- ` of its own, with one line per store. |
| Plan.PreBulletedStoreDoubled | lib/plan.ts:28-29 | A store written as `- x` appears in the data-store list as `- - x`. |
| Plan.PlanHasHeadings | lib/plan.ts:32-100 | Every plan contains its title and its seven section headings. |
| Plan.PlanShowsScalars | lib/plan.ts:16-36 | Service name, language and deployment each fall back to their own default only when absent. A given value, even an empty one, is shown as given. The stack line is the language followed by the framework label. |
| Plan.PlanShowsBootTarget | lib/plan.ts:57-63 | The bootstrap and client-instrumentation steps name the framework when it is non-empty, and the language otherwise. |
| Plan.PlanShowsServiceName | lib/test.ts:17-28 | A given service name appears in the plan. |
| Plan.PlanShowsSignal | lib/plan.ts:25-47 | Each signal shown appears in the plan behind `- `. |
| Plan.PlanShowsDataStore | lib/plan.ts:28-78 | Each given data store appears in the plan behind `- `. |
| Plan.PlanShowsDefaultDataStore | lib/plan.ts:28-30 | Without data stores, or with an empty list, the plan shows the default data-store line. |
| Checklist.BaseUrlHost | lib/checklist.ts:7-9 | The base URL is an HTTPS URL exactly when a host is configured, and the host can be read back from it. |
| Checklist.LinksShareBase | lib/checklist.ts:10-11 | The plan link is the base followed by `/api/plan`. The guide link is the base followed by `/api/edge-delta`. The two links differ. |
| Checklist.TaskLinesUnchecked | lib/checklist.ts:65-72 | Every task line of a phase starts with `- [ ] `. The streaming phase has one task line more than its fixed tasks. |
| Checklist.PhasesUnchecked | lib/checklist.ts:27-79 | Inside the phases, every line is blank, a phase heading, or a task starting with `- [ ] `. No task starts checked. |
| Checklist.TemplateHeadings | lib/checklist.ts:13-81 | When no prose line outside the phases starts with `## Phase ` and both link bullets start with something other than `#`, the template lines that start with `## Phase ` are exactly the phase headings 0, 1, 2, … in ascending order. |
| Checklist.HeadingsDistinct | lib/checklist.ts:27-74 | With at most ten phases, the phase headings are pairwise different. |
| Checklist.ChecklistLines | lib/checklist.ts:13-81 | Without line breaks in the prose or the host, splitting the document on `\n` gives back the template's lines with the links filled in. |
| Checklist.ChecklistHeadingOrder | lib/checklist.ts:27-74 | When the prose meets the same heading condition, no prose fragment holds a line break, and the host holds no line break, the phase headings read off the document's lines appear in ascending order. With at most ten phases, each appears exactly once. |
| Checklist.ChecklistLinkSlots | lib/checklist.ts:22-67 | The plan link is interpolated once. The guide link is interpolated twice when the streaming phase exists, and once otherwise. |
| Checklist.ChecklistShowsLinks | lib/checklist.ts:10-23 | Both links appear in the checklist, whatever the host. |
| Checklist.ChecklistShowsPhase | lib/checklist.ts:27-74 | Every phase heading appears in the checklist, whatever the host. |
| Checklist.ChecklistHasHeadings | lib/checklist.ts:13-74 | Every checklist contains its title, the how-to heading and every phase heading, whatever the host. |
| Checklist.SourcePhaseFive | lib/checklist.ts:27-74 | The source's checklist has seven phases, and phase 5 is titled `Stream Telemetry To Edge Delta`. |
| Checklist.SourceChecklistPhaseFive | lib/test.ts:11-15 | The generated checklist contains `## Phase 5 — Stream Telemetry To Edge Delta`, whatever the host. |
| Query.Params.Get | app/api/plan/route.ts:11-14 | Absent exactly when no pair has the name. Otherwise it returns the value of the first pair with that name. |
| EdgeDeltaRoute.ProtocolParamNames | app/api/edge-delta/route.ts:12 | Coercion recovers each protocol from its own name. It is case-sensitive (`HTTP` gives gRPC). An absent value gives gRPC. |
| EdgeDeltaRoute.RouteEndpoint | app/api/edge-delta/route.ts:10-13 | The deployment is the parameter or `production`, and the protocol is the coerced parameter. The endpoint is resolved from both and is one of the four table strings. |
| EdgeDeltaRoute.AbsentDeployment | app/api/edge-delta/route.ts:11 | Without a `deployment` parameter, the guide targets `production` and its endpoint. |
| EdgeDeltaRoute.EmptyDeployment | app/api/edge-delta/route.ts:11 | An empty `deployment` is passed through as the empty string. The heading shows it empty, and the production endpoint is configured. |
| EdgeDeltaRoute.RouteProtocol | app/api/edge-delta/route.ts:12 | `?protocol=http` shows `HTTP` and `http/protobuf`. Any other value shows `GRPC` and `grpc`. |
| PlanRoute.SplitTrim | app/api/plan/route.ts:16 | There are as many items as commas plus one. Each item is the matching piece, trimmed. |
| PlanRoute.SignalsParam | app/api/plan/route.ts:15-17 | The signals are absent exactly when the parameter is missing or empty. Otherwise there is one signal per comma-separated piece (commas plus one), and each is trimmed. |
| PlanRoute.StoresParam | app/api/plan/route.ts:18-20 | The stores are absent exactly when the parameter is missing or empty. Otherwise there is one store per comma-separated piece (commas plus one), each being `- ` followed by a trimmed piece. |
| PlanRoute.SplitTrimJoin | app/api/plan/route.ts:16 | Every item comes out trimmed. When no piece had surrounding white space, joining the items with commas gives back the parameter, so order and empty pieces are kept. |
| PlanRoute.RouteScalars | app/api/plan/route.ts:11-14 | A present scalar parameter, even an empty one, is used as given. An absent one leaves the default in place. |
| PlanRoute.RouteSignals | app/api/plan/route.ts:15-17 | When the parameter holds no line break, the signal list has one `- ` line per comma-separated piece, trimmed, in order. A missing or empty parameter gives the two defaults. |
| PlanRoute.RouteDataStores | app/api/plan/route.ts:18-20 | A missing or empty parameter gives the single default line. Otherwise, when the parameter holds no line break, every data-store line is a trimmed piece behind `- - `. |
| PlanRoute.EmptyPieceKept | app/api/plan/route.ts:16 | `a,,b` gives three items, the middle one empty. |
| PlanRoute.EmptyPieceShown | lib/plan.ts:26 | An empty signal renders as a bare `- ` line. |
| McpRoute.ChecklistToolUrlShape | app/api/mcp/route.ts:23-26 | The download URL is `https://` + host + `/api/checklist`, or `http://localhost:3000/api/checklist`. It has the same base as the checklist's links. |
| McpRoute.NormalizeStore | app/api/mcp/route.ts:101-103 | Every normalised item starts with `-`. |
| McpRoute.NormalizeStoreCases | app/api/mcp/route.ts:102 | An item is left unchanged exactly when it starts with `-`. Otherwise it gets `- ` in front. |
| McpRoute.NormalizeStores | app/api/mcp/route.ts:101-103 | Normalising keeps the number and the order of the items. |
| McpRoute.NormalizeIdempotent | app/api/mcp/route.ts:101-103 | Normalising twice is the same as normalising once. |
| McpRoute.PlanToolInput | app/api/mcp/route.ts:100-104 | The data stores are absent exactly when the argument is absent, so an empty array stays an array. Otherwise the stores keep their number and order. Each starts with `-`, and a store is unchanged exactly when it already started with `-`. |
| McpRoute.PlanToolInputStable | app/api/mcp/route.ts:94-105 | Only the data stores are changed. Passing the result through the tool again changes nothing. |
| McpRoute.PlanToolStoreLines | app/api/mcp/route.ts:100-104 | Absent or empty stores give the single default line. Otherwise, when no store contains a line break, every data-store line of the resulting plan starts with `- -`. |
| Text.JoinSplit | app/api/plan/route.ts:16 | Joining the pieces of a split with the separator gives back the text. |
| Text.SplitJoin | lib/plan.ts:26 | Splitting the join of a non-empty list of separator-free items gives back the items. |
| Text.TrimIdempotent | app/api/plan/route.ts:16 | A trimmed text has no white space at either end, and trimming it again changes nothing. |
| Text.ToLowerMatches | lib/edge-delta.ts:26 | Lower-casing yields a given lower-case key exactly when the text equals that key ignoring case. |

## Left out

- HTTP plumbing: `new URL(request.url)`, `Response`, status codes and headers. A request is its decoded query pairs, and a response is the document.
- Percent-decoding and `+` handling of query strings. `Query.Params` holds the already-decoded pairs.
- `process.env.VERCEL_PROJECT_PRODUCTION_URL` is the explicit parameter `host` of `Checklist.BaseUrl` and `McpRoute.ChecklistToolUrl`.
- The MCP registration (`createMcpHandler`, `server.tool`, the zod schemas and handler options). The `protocol` enum of `point-to-edge-delta` is the `Protocol` type of `EdgeDelta.EdgeDeltaOptions`. Its `deployment ?? undefined` is the identity on `Option`, so the tool passes the guide's options unchanged.
- The text of the `create-checklist` instructions. Only the URL it interpolates is modelled.
- `app/page.tsx`, `app/layout.tsx` and `app/api/checklist/route.ts`: user interface and a one-line wrapper, with no logic.
- `lib/test.ts` is used as evidence. Its three assertions are `EdgeDelta.SourceGuideStagingHttp`, `Plan.PlanShowsServiceName` and `Checklist.SourceChecklistPhaseFive`.
- Checklist.ChecklistHeadingOrder: stated under two conditions on the prose and one on the host, because a proof about the full checklist literal is expensive. `HeadingFree` requires that no line outside the phases starts with `## Phase ` and that both link bullets start with something other than `#`. `SingleLines` requires that no fragment holds a line break. The host must hold no line break either. The source's checklist text meets both prose conditions by inspection, but this is not proved.
- Checklist.TemplateHeadings: stated under `HeadingFree` only, for the same reason. `HeadingFree(SourceChecklistText)` is not proved, so the heading order of the generated checklist rests on that inspection.
- EdgeDelta.EndpointRecord: the guide (`ResolveGuide`, `GenerateEdgeDeltaGuide`) uses the corrected lookup. A deployment that lower-cases to `constructor` or `__proto__` therefore shows the production endpoint in the model, where the source renders `undefined`. The lookup as written is `EdgeDelta.EndpointAsWritten`.
- Checklist.HeadingsDistinct: proved for at most ten phases, where each numeral is a single digit. The source has seven.
- `toLowerCase` and `toUpperCase` are ASCII-only. For the table keys and the two protocol names, the full Unicode mappings give the same results.
- No member asserts that the prose itself is byte-for-byte correct. The source constants are copied from the template literals; the lemmas treat them as opaque.

## Findings

| source | as written | input that shows it | evidently intended | confidence | as-written member | corrected member |
|---|---|---|---|---|---|---|
| lib/edge-delta.ts:10-26 | `DEFAULT_ENDPOINTS` is a plain object literal. Indexing it with a lower-cased deployment also reaches members inherited from `Object.prototype`. Such a member is not nullish, so `??` does not fall back, and its `.grpc` is `undefined`. | deployment `Constructor`, protocol `grpc`: the endpoint renders as `undefined` | every name the table lacks falls back to the production row | not executed | EdgeDelta.EndpointAsWritten | EdgeDelta.Endpoint |

=== FILE: checklist.dfy ===
/** The Otelify checklist (lib/checklist.ts): links derived from the
    deployment's public host, and a Markdown document of numbered phases
    whose tasks all start unchecked. */
module Checklist {
  import opened Wrappers
  import opened Text
  import opened Template

  // ---------------------------------------------------------------------
  // Links
  // ---------------------------------------------------------------------

  /** The base URL used when no public host is configured. */
  const LocalBaseUrl: string := "http://localhost:3000"

  const SecureScheme: string := "https://"
  const PlanPath: string := "/api/plan"
  const GuidePath: string := "/api/edge-delta"

  /** The base URL: the configured host over HTTPS when that host is set and
      non-empty, else the local development server. `host` stands for the
      `VERCEL_PROJECT_PRODUCTION_URL` environment variable. */
  function BaseUrl(host: Option<string>): (r: string)
    ensures Truthy(host) ==> r == SecureScheme + host.value
    ensures !Truthy(host) ==> r == LocalBaseUrl
  {
    if Truthy(host) then SecureScheme + host.value else LocalBaseUrl
  }

  /** An API route under the base URL. */
  function ApiUrl(host: Option<string>, path: string): string {
    BaseUrl(host) + path
  }

  /** The two links the checklist interpolates. */
  datatype ChecklistLinks = ChecklistLinks(plan: string, guide: string)

  function LinksFor(host: Option<string>): ChecklistLinks {
    ChecklistLinks(ApiUrl(host, PlanPath), ApiUrl(host, GuidePath))
  }

  /** The base URL says which case applied: it is an HTTPS URL exactly when a
      host is configured, and then the host can be read back from it. */
  lemma BaseUrlHost(host: Option<string>)
    ensures StartsWith(BaseUrl(host), SecureScheme) <==> Truthy(host)
    ensures Truthy(host) ==> BaseUrl(host)[|SecureScheme|..] == host.value
  {
    if !Truthy(host) {
      assert BaseUrl(host)[4] != SecureScheme[4];
    }
  }

  /** Both links sit under the same base URL, differ only in their route,
      and so are never the same link. */
  lemma LinksShareBase(host: Option<string>)
    ensures var l := LinksFor(host);
            StartsWith(l.plan, BaseUrl(host)) && l.plan[|BaseUrl(host)|..] == PlanPath
            && StartsWith(l.guide, BaseUrl(host)) && l.guide[|BaseUrl(host)|..] == GuidePath
            && l.plan != l.guide
  {
    var l := LinksFor(host);
    var b := BaseUrl(host);
    assert l.plan[..|b|] == b && l.guide[..|b|] == b;
    assert l.plan[|b|..] == PlanPath && l.guide[|b|..] == GuidePath;
    assert l.plan[|b| + 5] != l.guide[|b| + 5];
  }

  /** No link breaks a line unless the configured host does. */
  lemma LinksSingleLine(host: Option<string>)
    requires '\n' !in host.GetOr("")
    ensures '\n' !in LinksFor(host).plan && '\n' !in LinksFor(host).guide
  {
    assert '\n' !in BaseUrl(host) by {
      if Truthy(host) {
        assert '\n' !in SecureScheme;
      } else {
        assert '\n' !in LocalBaseUrl;
      }
    }
    assert '\n' !in PlanPath && '\n' !in GuidePath;
  }

  // ---------------------------------------------------------------------
  // The document
  // ---------------------------------------------------------------------

  /** Which link a slot of the document shows. */
  datatype LinkSlot = PlanLink | GuideLink

  function LinkValue(l: ChecklistLinks, k: LinkSlot): string {
    match k
    case PlanLink => l.plan
    case GuideLink => l.guide
  }

  function LinkValues(l: ChecklistLinks): LinkSlot -> string {
    k => LinkValue(l, k)
  }

  /** The prefix of every task: an unchecked Markdown box. */
  const Unchecked: string := "- [ ] "

  /** The prefix of every phase heading. */
  const PhasePrefix: string := "## Phase "

  /** The phase whose first task links to the streaming guide. */
  const GuidePhase: nat := 5

  /** A decimal digit. */
  function Digit(d: nat): (c: char)
    requires d < 10
    ensures '0' <= c <= '9'
  {
    ('0' as int + d) as char
  }

  /** The decimal numeral of `n`, as a template literal prints a number. */
  function Numeral(n: nat): (r: string)
    ensures |r| > 0
    ensures n < 10 ==> r == [Digit(n)]
    ensures forall i :: 0 <= i < |r| ==> '0' <= r[i] <= '9'
    decreases n
  {
    if n < 10 then [Digit(n)] else Numeral(n / 10) + [Digit(n % 10)]
  }

  /** The heading of phase `n`. */
  function PhaseHeading(n: nat, title: string): string {
    PhasePrefix + Numeral(n) + " — " + title
  }

  /** One phase: its title and its tasks, without their boxes. */
  datatype PhaseText = PhaseText(title: string, tasks: seq<string>)

  /** The fixed prose of the checklist; every piece between two
      interpolations is a field here. */
  datatype ChecklistText = ChecklistText(
    title: string,
    intro: string,
    howToHeading: string,
    howTo: seq<string>,
    planBulletLead: string,
    planBulletTail: string,
    guideBulletLead: string,
    guideBulletTail: string,
    rule: string,
    phases: seq<PhaseText>,
    guideTaskLead: string,
    guideTaskTail: string,
    closing: string)

  const SourceChecklistText: ChecklistText := ChecklistText(
    title := "# Otelify Your Apps Checklist",
    intro := "Use this checklist to instrument your application with OpenTelemetry across logs, metrics, and traces, then stream data to Edge Delta.",
    howToHeading := "## How To Work With This Checklist",
    howTo := [
      "- Treat every unchecked item as a blocking task. Update the file by changing `- [ ]` to `- [x]` as soon as you complete a task.",
      "- Follow phases in order. Do not skip ahead; each phase builds on the previous one.",
      "- Keep a running changelog in your commit description or notes file as you make changes."
    ],
    planBulletLead := "- Use the `generate-first-step-plan` MCP tool (or download via `curl ",
    planBulletTail := "`) before starting Phase 2 to tailor the first instrumentation step to this service.",
    guideBulletLead := "- When you reach Phase 5, fetch detailed guidance for streaming to Edge Delta via `curl ",
    guideBulletTail := "`.",
    rule := "---",
    phases := [
      PhaseText("Prerequisites & Alignment", [
        "Confirm the service/stacks that must be instrumented first (service name, language/runtime, deployment target).",
        "Identify all existing logging, metrics, and tracing libraries currently in use.",
        "Verify you have access to deployment pipelines and environment variable management.",
        "Capture current observability gaps or SLO/SLA commitments that instrumentation must support."
      ]),
      PhaseText("OpenTelemetry Foundation", [
        "Add OpenTelemetry SDK dependencies for the target language (core SDK, exporters, instrumentation packages, propagators).",
        "Establish a consistent resource schema (service.name, service.namespace, environment, version).",
        "Configure context propagation (W3C trace context, baggage).",
        "Create a bootstrap module that initializes the OTel SDK and registers signal pipelines.",
        "Decide on configuration strategy (env vars, config file, feature flags) and document defaults."
      ]),
      PhaseText("First-Step Instrumentation (Guided Plan Required)", [
        "Use the `generate-first-step-plan` tool to retrieve an actionable plan that matches your stack.",
        "Implement the tasks outlined in the first-step plan (typically request/response tracing, inbound/outbound middleware, baseline metrics, and log enrichment).",
        "Add smoke tests or local demo flows to validate that traces, metrics, and logs emit sample data.",
        "Capture before/after snippets showing how instrumentation was added for documentation."
      ]),
      PhaseText("Deep Signal Coverage", [
        "Expand tracing coverage to business-critical operations (database calls, queues, external APIs).",
        "Instrument key metrics (throughput, latency, error rates, resource utilization) using OTel instruments.",
        "Route structured logs through the OTel logger or connect existing loggers via OTel log bridge exporters.",
        "Add attributes and span events aligned to troubleshooting and SLO diagnostics."
      ]),
      PhaseText("Verification & Hardening", [
        "Run the service locally with the OpenTelemetry collector/endpoint running in debug mode.",
        "Verify traces propagate across service boundaries and are sampled as expected.",
        "Validate metrics cardinality and ensure metric names follow OTel semantic conventions.",
        "Confirm logs include trace and span identifiers so they can be correlated downstream.",
        "Stress-test the service (or replay traffic) to observe exporter back-pressure and batching behaviour.",
        "Document runbooks for enabling/disabling instrumentation at runtime."
      ]),
      PhaseText("Stream Telemetry To Edge Delta", [
        "Configure the OpenTelemetry collector/exporter endpoint to use the Edge Delta OTLP ingest URL.",
        "Provide Edge Delta credentials (API token or mTLS bundle) via secure environment variables.",
        "Deploy a staging build with the Edge Delta endpoint configured and verify data appears in Edge Delta dashboards.",
        "Roll out the configuration to production; monitor ingestion metrics and alerts for 24 hours.",
        "Capture a screenshot or report from Edge Delta confirming logs, metrics, and traces are flowing."
      ]),
      PhaseText("Wrap-Up", [
        "Remove any temporary debug logging or hard-coded endpoints used during rollout.",
        "Finalize documentation: architecture diagrams, configuration matrix, and data retention policies.",
        "Hand off ongoing operations guidance to the owning team (alerting thresholds, dashboards, runbooks).",
        "Create a follow-up backlog of advanced instrumentation (profiling, span links, exemplars) if needed."
      ])
    ],
    guideTaskLead := "Fetch the latest Edge Delta streaming instructions by calling the `point-to-edge-delta` tool or downloading `curl ",
    guideTaskTail := "`.",
    closing := "Once all boxes are checked, your service is fully otelified and streaming telemetry to Edge Delta."
  )

  /** The title, the introduction and the working rules, closed by a
      horizontal rule. */
  function PreambleLines(t: ChecklistText): seq<Line<LinkSlot>> {
    FixedLines([t.title, "", t.intro, "", t.howToHeading, ""])
    + FixedLines(t.howTo)
    + [Slot(t.planBulletLead, PlanLink, t.planBulletTail),
       Slot(t.guideBulletLead, GuideLink, t.guideBulletTail)]
    + FixedLines(["", t.rule, ""])
  }

  /** The tasks of phase `n`, each behind an unchecked box; the streaming
      phase opens with the task that links to the guide. */
  function TaskLines(n: nat, p: PhaseText, t: ChecklistText): seq<Line<LinkSlot>> {
    (if n == GuidePhase then [Slot(Unchecked + t.guideTaskLead, GuideLink, t.guideTaskTail)] else [])
    + FixedLines(Prefixed(Unchecked, p.tasks))
  }

  /** Phase `n`: its heading, a blank line, its tasks and a blank line. */
  function PhaseLines(n: nat, p: PhaseText, t: ChecklistText): seq<Line<LinkSlot>> {
    FixedLines([PhaseHeading(n, p.title), ""]) + TaskLines(n, p, t) + FixedLines([""])
  }

  /** The phases `ps`, numbered from `n`. */
  function PhasesFrom(n: nat, ps: seq<PhaseText>, t: ChecklistText): seq<Line<LinkSlot>>
    decreases |ps|
  {
    if |ps| == 0 then [] else PhaseLines(n, ps[0], t) + PhasesFrom(n + 1, ps[1..], t)
  }

  function ChecklistTemplate(t: ChecklistText): seq<Line<LinkSlot>> {
    PreambleLines(t) + PhasesFrom(0, t.phases, t) + FixedLines([t.closing])
  }

  /** The checklist for the given host, with the prose `t`. */
  function Checklist(host: Option<string>, t: ChecklistText): string {
    Render(ChecklistTemplate(t), LinkValues(LinksFor(host)))
  }

  /** `generateChecklist`: the checklist with the source's own prose. */
  function GenerateChecklist(host: Option<string>): string {
    Checklist(host, SourceChecklistText)
  }

  /** The phase headings, in order, numbered from `n`. */
  function Headings(n: nat, ps: seq<PhaseText>): (r: seq<string>)
    ensures |r| == |ps|
    ensures forall i :: 0 <= i < |ps| ==> r[i] == PhaseHeading(n + i, ps[i].title)
    decreases |ps|
  {
    if |ps| == 0 then [] else [PhaseHeading(n, ps[0].title)] + Headings(n + 1, ps[1..])
  }

  /** The lines of a document that look like phase headings, in order. */
  function PhaseHeadingLines(lines: seq<string>): (r: seq<string>)
    decreases |lines|
  {
    if |lines| == 0 then []
    else (if StartsWith(lines[0], PhasePrefix) then [lines[0]] else []) + PhaseHeadingLines(lines[1..])
  }

  /** The prose outside the phases never looks like a phase heading: no
      fixed line starts with `## Phase `, and each lead in front of a link
      starts with something other than `#`. */
  predicate HeadingFree(t: ChecklistText) {
    && !StartsWith(t.title, PhasePrefix)
    && !StartsWith(t.intro, PhasePrefix)
    && !StartsWith(t.howToHeading, PhasePrefix)
    && (forall i :: 0 <= i < |t.howTo| ==> !StartsWith(t.howTo[i], PhasePrefix))
    && |t.planBulletLead| > 0 && t.planBulletLead[0] != '#'
    && |t.guideBulletLead| > 0 && t.guideBulletLead[0] != '#'
    && !StartsWith(t.rule, PhasePrefix)
    && !StartsWith(t.closing, PhasePrefix)
  }

  /** No piece of the prose contains a line break. */
  predicate SingleLines(t: ChecklistText) {
    && '\n' !in t.title && '\n' !in t.intro && '\n' !in t.howToHeading
    && (forall i :: 0 <= i < |t.howTo| ==> '\n' !in t.howTo[i])
    && '\n' !in t.planBulletLead && '\n' !in t.planBulletTail
    && '\n' !in t.guideBulletLead && '\n' !in t.guideBulletTail
    && '\n' !in t.rule
    && (forall n :: 0 <= n < |t.phases| ==> '\n' !in t.phases[n].title)
    && (forall n, i :: 0 <= n < |t.phases| && 0 <= i < |t.phases[n].tasks| ==> '\n' !in t.phases[n].tasks[i])
    && '\n' !in t.guideTaskLead && '\n' !in t.guideTaskTail
    && '\n' !in t.closing
  }

  // ---------------------------------------------------------------------
  // Phase headings
  // ---------------------------------------------------------------------

  lemma {:induction false} PhaseHeadingLinesAppend(a: seq<string>, b: seq<string>)
    ensures PhaseHeadingLines(a + b) == PhaseHeadingLines(a) + PhaseHeadingLines(b)
    decreases |a|
  {
    if |a| == 0 {
      assert a + b == b;
    } else {
      PhaseHeadingLinesAppend(a[1..], b);
      assert (a + b)[0] == a[0];
      assert (a + b)[1..] == a[1..] + b;
    }
  }

  lemma {:induction false} NoPhaseHeadingLines(lines: seq<string>)
    requires forall i :: 0 <= i < |lines| ==> !StartsWith(lines[i], PhasePrefix)
    ensures PhaseHeadingLines(lines) == []
    decreases |lines|
  {
    if |lines| > 0 {
      NoPhaseHeadingLines(lines[1..]);
    }
  }

  /** Every task of a phase is shown behind an unchecked box; the streaming
      phase has one task more than its fixed ones. */
  lemma TaskLinesUnchecked(n: nat, p: PhaseText, t: ChecklistText, value: LinkSlot -> string)
    ensures var tasks := Lines(TaskLines(n, p, t), value);
            && |tasks| == |p.tasks| + (if n == GuidePhase then 1 else 0)
            && forall i :: 0 <= i < |tasks| ==> StartsWith(tasks[i], Unchecked)
  {
    var tl := TaskLines(n, p, t);
    var lines := Lines(tl, value);
    var extra := if n == GuidePhase then 1 else 0;
    forall i | 0 <= i < |lines|
      ensures StartsWith(lines[i], Unchecked)
    {
      if i < extra {
        var rest := t.guideTaskLead + value(GuideLink) + t.guideTaskTail;
        assert tl[i] == Slot(Unchecked + t.guideTaskLead, GuideLink, t.guideTaskTail);
        assert lines[i] == Unchecked + rest;
        assert lines[i][..|Unchecked|] == Unchecked;
      } else {
        assert tl[i] == Fixed(Unchecked + p.tasks[i - extra]);
        assert lines[i][..|Unchecked|] == Unchecked;
      }
    }
  }

  /** A phase contributes exactly its own heading. */
  lemma PhaseLinesHeading(n: nat, p: PhaseText, t: ChecklistText, value: LinkSlot -> string)
    ensures PhaseHeadingLines(Lines(PhaseLines(n, p, t), value)) == [PhaseHeading(n, p.title)]
  {
    var h := PhaseHeading(n, p.title);
    var head := FixedLines<LinkSlot>([h, ""]);
    var tasks := TaskLines(n, p, t);
    var tail := FixedLines<LinkSlot>([""]);
    LinesAppend(head + tasks, tail, value);
    LinesAppend(head, tasks, value);
    PhaseHeadingLinesAppend(Lines(head, value) + Lines(tasks, value), Lines(tail, value));
    PhaseHeadingLinesAppend(Lines(head, value), Lines(tasks, value));
    var taskLines := Lines(tasks, value);
    TaskLinesUnchecked(n, p, t, value);
    forall i | 0 <= i < |taskLines|
      ensures !StartsWith(taskLines[i], PhasePrefix)
    {
      assert taskLines[i][0] == Unchecked[0];
    }
    NoPhaseHeadingLines(taskLines);
    assert Lines(head, value) == [h, ""];
    assert Lines(tail, value) == [""];
    assert h[..|PhasePrefix|] == PhasePrefix;
    assert PhaseHeadingLines([h, ""]) == [h] + PhaseHeadingLines([""]);
  }

  /** The phases numbered from `n` contribute their headings, in order. */
  lemma {:induction false} PhasesHeadings(n: nat, ps: seq<PhaseText>, t: ChecklistText, value: LinkSlot -> string)
    ensures PhaseHeadingLines(Lines(PhasesFrom(n, ps, t), value)) == Headings(n, ps)
    decreases |ps|
  {
    if |ps| > 0 {
      var first := PhaseLines(n, ps[0], t);
      var rest := PhasesFrom(n + 1, ps[1..], t);
      PhasesHeadings(n + 1, ps[1..], t, value);
      LinesAppend(first, rest, value);
      PhaseHeadingLinesAppend(Lines(first, value), Lines(rest, value));
      PhaseLinesHeading(n, ps[0], t, value);
    }
  }

  /** Whatever the links, no line before the phases looks like a heading. */
  lemma PreambleHeadingFree(t: ChecklistText, value: LinkSlot -> string)
    requires HeadingFree(t)
    ensures PhaseHeadingLines(Lines(PreambleLines(t), value)) == []
  {
    var pre := PreambleLines(t);
    var lines := Lines(pre, value);
    var h := |t.howTo|;
    forall i | 0 <= i < |lines|
      ensures !StartsWith(lines[i], PhasePrefix)
    {
      if i == 6 + h {
        assert lines[i][0] == t.planBulletLead[0];
      } else if i == 7 + h {
        assert lines[i][0] == t.guideBulletLead[0];
      } else if 6 <= i < 6 + h {
        assert lines[i] == t.howTo[i - 6];
      }
    }
    NoPhaseHeadingLines(lines);
  }

  /** The lines of the template that look like phase headings are exactly
      the phase headings, in ascending order. */
  lemma TemplateHeadings(t: ChecklistText, value: LinkSlot -> string)
    requires HeadingFree(t)
    ensures PhaseHeadingLines(Lines(ChecklistTemplate(t), value)) == Headings(0, t.phases)
  {
    var pre := PreambleLines(t);
    var mid := PhasesFrom(0, t.phases, t);
    var post := FixedLines<LinkSlot>([t.closing]);
    LinesAppend(pre + mid, post, value);
    LinesAppend(pre, mid, value);
    PhaseHeadingLinesAppend(Lines(pre, value) + Lines(mid, value), Lines(post, value));
    PhaseHeadingLinesAppend(Lines(pre, value), Lines(mid, value));
    PhasesHeadings(0, t.phases, t, value);
    PreambleHeadingFree(t, value);
    assert Lines(post, value) == [t.closing];
    NoPhaseHeadingLines([t.closing]);
  }

  /** Headings numbered below ten are pairwise different, so each phase
      heading occurs once. */
  lemma HeadingsDistinct(ps: seq<PhaseText>)
    requires |ps| <= 10
    ensures forall i, j :: 0 <= i < j < |ps| ==> Headings(0, ps)[i] != Headings(0, ps)[j]
  {
    forall i, j | 0 <= i < j < |ps|
      ensures Headings(0, ps)[i] != Headings(0, ps)[j]
    {
      assert Headings(0, ps)[i][|PhasePrefix|] == Digit(i);
      assert Headings(0, ps)[j][|PhasePrefix|] == Digit(j);
    }
  }

  // ---------------------------------------------------------------------
  // Lines of the document
  // ---------------------------------------------------------------------

  /** A heading breaks no line unless its title does. */
  lemma HeadingSingleLine(n: nat, title: string)
    requires '\n' !in title
    ensures '\n' !in PhaseHeading(n, title)
  {
    var num := Numeral(n);
    assert '\n' !in num by {
      forall i | 0 <= i < |num|
        ensures num[i] != '\n'
      {
        assert '0' <= num[i] <= '9';
      }
    }
    assert '\n' !in PhasePrefix && '\n' !in " — ";
  }

  /** The phases break no line of their own. */
  lemma {:induction false} PhasesSingleLines(n: nat, ps: seq<PhaseText>, t: ChecklistText)
    requires forall k :: 0 <= k < |ps| ==> '\n' !in ps[k].title
    requires forall k, i :: 0 <= k < |ps| && 0 <= i < |ps[k].tasks| ==> '\n' !in ps[k].tasks[i]
    requires '\n' !in t.guideTaskLead && '\n' !in t.guideTaskTail
    ensures forall i :: 0 <= i < |PhasesFrom(n, ps, t)| ==> Free(PhasesFrom(n, ps, t)[i], '\n')
    decreases |ps|
  {
    if |ps| > 0 {
      PhasesSingleLines(n + 1, ps[1..], t);
      HeadingSingleLine(n, ps[0].title);
      assert '\n' !in Unchecked;
      var first := PhaseLines(n, ps[0], t);
      forall i | 0 <= i < |first|
        ensures Free(first[i], '\n')
      {
        var tasks := TaskLines(n, ps[0], t);
        var extra := if n == GuidePhase then 1 else 0;
        if 2 <= i < 2 + extra {
          assert first[i] == Slot(Unchecked + t.guideTaskLead, GuideLink, t.guideTaskTail);
        } else if 2 + extra <= i < 2 + |tasks| {
          assert first[i] == Fixed(Unchecked + ps[0].tasks[i - 2 - extra]);
        }
      }
    }
  }

  /** The checklist's fixed parts break no line when its prose does not. */
  lemma TemplateSingleLines(t: ChecklistText)
    requires SingleLines(t)
    ensures forall i :: 0 <= i < |ChecklistTemplate(t)| ==> Free(ChecklistTemplate(t)[i], '\n')
  {
    PhasesSingleLines(0, t.phases, t);
    var pre := PreambleLines(t);
    var h := |t.howTo|;
    forall i | 0 <= i < |pre|
      ensures Free(pre[i], '\n')
    {
      if 6 <= i < 6 + h {
        assert pre[i] == Fixed(t.howTo[i - 6]);
      }
    }
  }

  /** Without a line break in the prose or the host, the document's lines
      are exactly the template's lines with the links filled in. */
  lemma ChecklistLines(host: Option<string>, t: ChecklistText)
    requires SingleLines(t) && '\n' !in host.GetOr("")
    ensures Split(Checklist(host, t), '\n') == Lines(ChecklistTemplate(t), LinkValues(LinksFor(host)))
  {
    var value := LinkValues(LinksFor(host));
    TemplateSingleLines(t);
    LinksSingleLine(host);
    forall k
      ensures '\n' !in value(k)
    {
      match k
      case PlanLink =>
      case GuideLink =>
    }
    RenderLines(ChecklistTemplate(t), value);
  }

  /** The phase headings of the checklist, read off its lines, are the
      headings 0, 1, 2, … in ascending order; with at most ten phases each
      occurs exactly once. */
  lemma ChecklistHeadingOrder(host: Option<string>, t: ChecklistText)
    requires HeadingFree(t) && SingleLines(t) && '\n' !in host.GetOr("")
    ensures PhaseHeadingLines(Split(Checklist(host, t), '\n')) == Headings(0, t.phases)
    ensures |t.phases| <= 10 ==>
              forall i, j :: 0 <= i < j < |t.phases| ==> Headings(0, t.phases)[i] != Headings(0, t.phases)[j]
  {
    ChecklistLines(host, t);
    TemplateHeadings(t, LinkValues(LinksFor(host)));
    if |t.phases| <= 10 {
      HeadingsDistinct(t.phases);
    }
  }

  /** Inside the phases every line is blank, a phase heading, or a task
      behind an unchecked box: no task starts out checked. */
  lemma {:induction false} PhasesUnchecked(n: nat, ps: seq<PhaseText>, t: ChecklistText, value: LinkSlot -> string)
    ensures forall line :: line in Lines(PhasesFrom(n, ps, t), value) ==>
              line == "" || StartsWith(line, PhasePrefix) || StartsWith(line, Unchecked)
    decreases |ps|
  {
    if |ps| > 0 {
      var first := PhaseLines(n, ps[0], t);
      var rest := PhasesFrom(n + 1, ps[1..], t);
      var head := FixedLines<LinkSlot>([PhaseHeading(n, ps[0].title), ""]);
      var tasks := TaskLines(n, ps[0], t);
      PhasesUnchecked(n + 1, ps[1..], t, value);
      LinesAppend(first, rest, value);
      LinesAppend(head + tasks, FixedLines<LinkSlot>([""]), value);
      LinesAppend(head, tasks, value);
      TaskLinesUnchecked(n, ps[0], t, value);
      assert StartsWith(PhaseHeading(n, ps[0].title), PhasePrefix) by {
        assert PhaseHeading(n, ps[0].title)[..|PhasePrefix|] == PhasePrefix;
      }
      assert Lines(head, value) == [PhaseHeading(n, ps[0].title), ""];
      assert Lines(FixedLines<LinkSlot>([""]), value) == [""];
    }
  }

  // ---------------------------------------------------------------------
  // Links in the document
  // ---------------------------------------------------------------------

  lemma TaskLinkSlots(n: nat, p: PhaseText, t: ChecklistText)
    ensures SlotCount(TaskLines(n, p, t), GuideLink) == (if n == GuidePhase then 1 else 0)
    ensures SlotCount(TaskLines(n, p, t), PlanLink) == 0
  {
    var guide: seq<Line<LinkSlot>> :=
      if n == GuidePhase then [Slot(Unchecked + t.guideTaskLead, GuideLink, t.guideTaskTail)] else [];
    var fixed := FixedLines<LinkSlot>(Prefixed(Unchecked, p.tasks));
    SlotCountAppend(guide, fixed, GuideLink);
    SlotCountAppend(guide, fixed, PlanLink);
    SlotCountFixed<LinkSlot>(Prefixed(Unchecked, p.tasks), GuideLink);
    SlotCountFixed<LinkSlot>(Prefixed(Unchecked, p.tasks), PlanLink);
    if n == GuidePhase {
      assert guide[1..] == [];
    }
  }

  /** Across the phases numbered from `n`, the guide link is interpolated
      once when the streaming phase is among them, and the plan link never. */
  lemma {:induction false} PhasesLinkSlots(n: nat, ps: seq<PhaseText>, t: ChecklistText)
    ensures SlotCount(PhasesFrom(n, ps, t), GuideLink) == (if n <= GuidePhase < n + |ps| then 1 else 0)
    ensures SlotCount(PhasesFrom(n, ps, t), PlanLink) == 0
    decreases |ps|
  {
    if |ps| > 0 {
      var head := FixedLines<LinkSlot>([PhaseHeading(n, ps[0].title), ""]);
      var tasks := TaskLines(n, ps[0], t);
      var tail := FixedLines<LinkSlot>([""]);
      var rest := PhasesFrom(n + 1, ps[1..], t);
      PhasesLinkSlots(n + 1, ps[1..], t);
      TaskLinkSlots(n, ps[0], t);
      forall key: LinkSlot
        ensures SlotCount(PhasesFrom(n, ps, t), key) == SlotCount(tasks, key) + SlotCount(rest, key)
      {
        SlotCountAppend(head + tasks + tail, rest, key);
        SlotCountAppend(head + tasks, tail, key);
        SlotCountAppend(head, tasks, key);
        SlotCountFixed<LinkSlot>([PhaseHeading(n, ps[0].title), ""], key);
        SlotCountFixed<LinkSlot>([""], key);
      }
    }
  }

  /** The preamble interpolates each link once. */
  lemma PreambleLinkSlots(t: ChecklistText)
    ensures SlotCount(PreambleLines(t), GuideLink) == 1
    ensures SlotCount(PreambleLines(t), PlanLink) == 1
  {
    var a := FixedLines<LinkSlot>([t.title, "", t.intro, "", t.howToHeading, ""]);
    var b := FixedLines<LinkSlot>(t.howTo);
    var c := [Slot(t.planBulletLead, PlanLink, t.planBulletTail), Slot(t.guideBulletLead, GuideLink, t.guideBulletTail)];
    var d := FixedLines<LinkSlot>(["", t.rule, ""]);
    assert c[1..] == [c[1]] && [c[1]][1..] == [];
    assert SlotCount(c, PlanLink) == 1 && SlotCount(c, GuideLink) == 1;
    forall key: LinkSlot
      ensures SlotCount(PreambleLines(t), key) == SlotCount(c, key)
    {
      SlotCountAppend(a + b + c, d, key);
      SlotCountAppend(a + b, c, key);
      SlotCountAppend(a, b, key);
      SlotCountFixed<LinkSlot>([t.title, "", t.intro, "", t.howToHeading, ""], key);
      SlotCountFixed<LinkSlot>(t.howTo, key);
      SlotCountFixed<LinkSlot>(["", t.rule, ""], key);
    }
  }

  /** The plan link is interpolated once and the guide link twice: in the
      working rules and in the first task of the streaming phase. */
  lemma ChecklistLinkSlots(t: ChecklistText)
    ensures SlotCount(ChecklistTemplate(t), PlanLink) == 1
    ensures SlotCount(ChecklistTemplate(t), GuideLink) == (if GuidePhase < |t.phases| then 2 else 1)
  {
    var pre := PreambleLines(t);
    var mid := PhasesFrom(0, t.phases, t);
    var post := FixedLines<LinkSlot>([t.closing]);
    PreambleLinkSlots(t);
    PhasesLinkSlots(0, t.phases, t);
    forall key: LinkSlot
      ensures SlotCount(ChecklistTemplate(t), key) == SlotCount(pre, key) + SlotCount(mid, key)
    {
      SlotCountAppend(pre + mid, post, key);
      SlotCountAppend(pre, mid, key);
      SlotCountFixed<LinkSlot>([t.closing], key);
    }
  }

  /** Both links appear in the checklist, whatever the host. */
  lemma ChecklistShowsLinks(host: Option<string>, t: ChecklistText)
    ensures Contains(Checklist(host, t), LinksFor(host).plan)
    ensures Contains(Checklist(host, t), LinksFor(host).guide)
  {
    var tmpl := ChecklistTemplate(t);
    var value := LinkValues(LinksFor(host));
    var k := 6 + |t.howTo|;
    assert tmpl[k] == Slot(t.planBulletLead, PlanLink, t.planBulletTail);
    assert tmpl[k + 1] == Slot(t.guideBulletLead, GuideLink, t.guideBulletTail);
    RenderShowsSlot(tmpl, value, k);
    RenderShowsSlot(tmpl, value, k + 1);
  }

  /** The heading of phase `i` of the phases numbered from `n` is a line of
      their template. */
  lemma {:induction false} PhasesHaveHeading(n: nat, ps: seq<PhaseText>, t: ChecklistText, i: nat)
    requires i < |ps|
    ensures Fixed(PhaseHeading(n + i, ps[i].title)) in PhasesFrom(n, ps, t)
    decreases i
  {
    var first := PhaseLines(n, ps[0], t);
    if i == 0 {
      assert first[0] == Fixed(PhaseHeading(n, ps[0].title));
      assert PhasesFrom(n, ps, t)[0] == first[0];
    } else {
      PhasesHaveHeading(n + 1, ps[1..], t, i - 1);
      assert ps[1..][i - 1] == ps[i];
    }
  }

  /** Every phase heading appears in the checklist, whatever the host. */
  lemma ChecklistShowsPhase(host: Option<string>, t: ChecklistText, n: nat)
    requires n < |t.phases|
    ensures Contains(Checklist(host, t), PhaseHeading(n, t.phases[n].title))
  {
    PhasesHaveHeading(0, t.phases, t, n);
    RenderShowsMember(ChecklistTemplate(t), LinkValues(LinksFor(host)), Fixed(PhaseHeading(n, t.phases[n].title)));
  }

  /** The checklist's headings: its title, the how-to heading and the phase
      headings in order. */
  function ChecklistHeadings(t: ChecklistText): seq<string> {
    [t.title, t.howToHeading] + Headings(0, t.phases)
  }

  /** Every heading of the checklist occurs in it, whatever the host. */
  lemma ChecklistHasHeadings(host: Option<string>, t: ChecklistText)
    ensures forall h :: h in ChecklistHeadings(t) ==> Contains(Checklist(host, t), h)
  {
    var tmpl := ChecklistTemplate(t);
    var value := LinkValues(LinksFor(host));
    assert tmpl[0] == Fixed(t.title);
    assert tmpl[4] == Fixed(t.howToHeading);
    RenderShowsLine(tmpl, value, 0);
    RenderShowsLine(tmpl, value, 4);
    forall n | 0 <= n < |t.phases|
      ensures Contains(Checklist(host, t), Headings(0, t.phases)[n])
    {
      ChecklistShowsPhase(host, t, n);
    }
  }

  /** The source's checklist has seven phases, and the one that links to the
      streaming guide is titled `Stream Telemetry To Edge Delta`. */
  lemma SourcePhaseFive()
    ensures |SourceChecklistText.phases| == 7
    ensures SourceChecklistText.phases[GuidePhase].title == "Stream Telemetry To Edge Delta"
  {
  }

  /** The heading of the streaming phase, whatever its title. */
  lemma PhaseFiveHeading(title: string)
    ensures PhaseHeading(GuidePhase, title) == "## Phase 5 — " + title
  {
    assert Numeral(GuidePhase) == [Digit(5)] == "5";
  }

  /** The source's title of that phase completes the heading. */
  lemma PhaseFiveTitle()
    ensures PhaseHeading(GuidePhase, "Stream Telemetry To Edge Delta")
         == "## Phase 5 — Stream Telemetry To Edge Delta"
  {
    PhaseFiveHeading("Stream Telemetry To Edge Delta");
  }

  /** The generated checklist announces the streaming phase, whatever the
      host. */
  lemma SourceChecklistPhaseFive(host: Option<string>)
    ensures Contains(GenerateChecklist(host), "## Phase 5 — Stream Telemetry To Edge Delta")
  {
    SourcePhaseFive();
    PhaseFiveTitle();
    ChecklistShowsPhase(host, SourceChecklistText, GuidePhase);
  }
}

=== FILE: edge_delta.dfy ===
/** The Edge Delta streaming guide (lib/edge-delta.ts): a fixed table of
    ingest endpoints, the resolution of one endpoint from a deployment name
    and a protocol, and the Markdown guide the resolved values are
    interpolated into. */
module EdgeDelta {
  import opened Wrappers
  import opened Text
  import opened Template

  /** The OTLP transport; the option type of the source admits only these two. */
  datatype Protocol = Grpc | Http {

    /** The protocol's name as the caller spells it. */
    function Name(): string {
      match this
      case Grpc => "grpc"
      case Http => "http"
    }

    /** The value of `OTEL_EXPORTER_OTLP_PROTOCOL` for this transport. */
    function ExporterSetting(): string {
      if this == Http then "http/protobuf" else "grpc"
    }
  }

  /** One row of the endpoint table: an endpoint per protocol. */
  datatype Endpoints = Endpoints(grpc: string, http: string) {

    /** The field named by the protocol: `http` for Http, `grpc` otherwise. */
    function Select(protocol: Protocol): string {
      if protocol == Http then http else grpc
    }
  }

  const Production: Endpoints :=
    Endpoints("otel.ingest.edgedelta.com:443", "https://otel.ingest.edgedelta.com")

  const Staging: Endpoints :=
    Endpoints("otel.staging.edgedelta.com:443", "https://otel.staging.edgedelta.com")

  /** `DEFAULT_ENDPOINTS`, keyed by lower-case deployment name. */
  const DefaultEndpoints: map<string, Endpoints> :=
    map["production" := Production, "staging" := Staging]

  /** The four endpoint strings the table holds. */
  const TableEndpoints: set<string> :=
    { Production.grpc, Production.http, Staging.grpc, Staging.http }

  /** The table row for a deployment: looked up under its lower-cased name,
      falling back to the production row for a name the table lacks. */
  function EndpointRecord(deployment: string): (e: Endpoints)
    ensures e == Production || e == Staging
    ensures ToLower(deployment) in DefaultEndpoints ==> e == DefaultEndpoints[ToLower(deployment)]
    ensures ToLower(deployment) !in DefaultEndpoints ==> e == Production
  {
    var key := ToLower(deployment);
    if key in DefaultEndpoints then DefaultEndpoints[key] else Production
  }

  /** The endpoint to configure for a deployment and protocol. */
  function Endpoint(deployment: string, protocol: Protocol): (r: string)
    ensures r in TableEndpoints
  {
    EndpointRecord(deployment).Select(protocol)
  }

  /** `EdgeDeltaOptions`: both fields optional. */
  datatype EdgeDeltaOptions = EdgeDeltaOptions(deployment: Option<string>, protocol: Option<Protocol>)

  /** The three values the guide interpolates. */
  datatype GuideSettings = GuideSettings(deployment: string, protocol: Protocol, endpoint: string)

  /** Applies the parameter defaults and resolves the endpoint. The displayed
      deployment is the caller's own string; only the lookup lower-cases it. */
  function ResolveGuide(o: EdgeDeltaOptions): GuideSettings {
    var deployment := o.deployment.GetOr("production");
    var protocol := o.protocol.GetOr(Grpc);
    GuideSettings(deployment, protocol, Endpoint(deployment, protocol))
  }

  /** The fixed fragments of the guide's template literal, in order. The
      lines that interpolate a value are a lead, the value and a tail. */
  datatype GuideText = GuideText(
    title: string,
    deploymentLead: string,
    protocolLead: string,
    endpointLead: string,
    prerequisites: Section,
    environment: Section,
    serviceNameLead: string,
    serviceNameTail: string,
    resourceAttributesLine: string,
    protocolVariableLead: string,
    endpointVariableLead: string,
    environmentClosing: seq<string>,
    pipeline: Section,
    collectorEndpointLead: string,
    pipelineClosing: seq<string>,
    validation: Section,
    cutover: Section,
    closingLead: string,
    closingTail: string)

  /** The guide's own text. */
  const SourceGuideText: GuideText := GuideText(
    title := "# Stream OpenTelemetry Signals To Edge Delta",
    deploymentLead := "Deployment target: **",
    protocolLead := "Protocol: **",
    endpointLead := "Endpoint to configure: **",
    prerequisites := Section("## 1. Prerequisites", [
      "",
      "- Edge Delta account with access to the OpenTelemetry ingest pipeline.",
      "- API token or mTLS certificate bundle provisioned for the service.",
      "- OpenTelemetry Collector or in-process OTLP exporter reachable from the service.",
      "- Network rules opened so the service or collector can reach Edge Delta over port 4317 (gRPC) or 4318 (HTTP).",
      ""]),
    environment := Section("## 2. Configure Environment Variables", [
      "",
      "```bash"]),
    serviceNameLead := "export OTEL_SERVICE_NAME=\"",
    serviceNameTail := "-service\"       # override with service.name",
    resourceAttributesLine :=
      "export OTEL_RESOURCE_ATTRIBUTES=\"service.namespace=team,service.version=$(git rev-parse --short HEAD)\"",
    protocolVariableLead := "export OTEL_EXPORTER_OTLP_PROTOCOL=",
    endpointVariableLead := "export OTEL_EXPORTER_OTLP_ENDPOINT=\"",
    environmentClosing := [
      "export OTEL_EXPORTER_OTLP_HEADERS=\"ed-api-key=<EDGE_DELTA_API_TOKEN>\"",
      "```",
      "",
      "For collectors running as sidecars or DaemonSets, inject these values into the collector config instead of the application.",
      ""],
    pipeline := Section("## 3. Collector Pipeline Snippet", [
      "",
      "```yaml",
      "receivers:",
      "  otlp:",
      "    protocols:",
      "      grpc:",
      "      http:",
      "",
      "exporters:",
      "  otlp/edgedelta:"]),
    collectorEndpointLead := "    endpoint: ",
    pipelineClosing := [
      "    tls:",
      "      insecure_skip_verify: false",
      "    headers:",
      "      ed-api-key: ${EDGE_DELTA_API_TOKEN}",
      "",
      "service:",
      "  pipelines:",
      "    traces:",
      "      receivers: [otlp]",
      "      exporters: [otlp/edgedelta]",
      "    metrics:",
      "      receivers: [otlp]",
      "      exporters: [otlp/edgedelta]",
      "    logs:",
      "      receivers: [otlp]",
      "      exporters: [otlp/edgedelta]",
      "```",
      ""],
    validation := Section("## 4. Validation Checklist", [
      "",
      "- Deploy the configuration to a staging environment.",
      "- Generate test traffic and confirm Edge Delta dashboards show traces, metrics, and logs.",
      "- Verify Edge Delta automatically groups signals by `service.namespace`, `service.name`, and `deployment.environment`.",
      "- Monitor exporter metrics (`otlp_exporter_* `) for queue length, retries, and dropped spans.",
      "- Enable alerting in Edge Delta for ingestion failures or high error rates.",
      ""]),
    cutover := Section("## 5. Production Cutover Steps", [
      "",
      "1. Promote the validated configuration to production via infrastructure-as-code or configuration management.",
      "2. Rotate Edge Delta tokens following company security policy.",
      "3. Update runbooks with the Edge Delta ingestion endpoint and troubleshooting steps.",
      "4. Schedule a post-cutover review after 24 hours to confirm sustained telemetry flow.",
      ""]),
    closingLead := "Once these steps are completed, ",
    closingTail := " traffic will stream to Edge Delta.")

  /** The values the guide interpolates. */
  datatype GuideSlot = DeploymentName | ProtocolLabel | EndpointAddress | ExporterProtocol

  /** What each slot shows: the deployment as given, the upper-cased
      protocol, the resolved endpoint, the exporter protocol setting. */
  function GuideValue(s: GuideSettings, k: GuideSlot): string {
    match k
    case DeploymentName => s.deployment
    case ProtocolLabel => ToUpper(s.protocol.Name())
    case EndpointAddress => s.endpoint
    case ExporterProtocol => s.protocol.ExporterSetting()
  }

  function GuideValues(s: GuideSettings): GuideSlot -> string {
    k => GuideValue(s, k)
  }

  /** The guide's template literal, line by line. */
  function GuideTemplate(t: GuideText): seq<Line<GuideSlot>> {
    [ Fixed(t.title),
      Fixed(""),
      Slot(t.deploymentLead, DeploymentName, "**"),
      Slot(t.protocolLead, ProtocolLabel, "**"),
      Slot(t.endpointLead, EndpointAddress, "**"),
      Fixed("")
    ]
    + SectionLines(t.prerequisites)
    + SectionLines(t.environment)
    + [ Slot(t.serviceNameLead, DeploymentName, t.serviceNameTail),
        Fixed(t.resourceAttributesLine),
        Slot(t.protocolVariableLead, ExporterProtocol, ""),
        Slot(t.endpointVariableLead, EndpointAddress, "\"")
      ]
    + FixedLines(t.environmentClosing)
    + SectionLines(t.pipeline)
    + [Slot(t.collectorEndpointLead, EndpointAddress, "")]
    + FixedLines(t.pipelineClosing)
    + SectionLines(t.validation)
    + SectionLines(t.cutover)
    + [Slot(t.closingLead, DeploymentName, t.closingTail)]
  }

  /** The Markdown guide for the resolved values, around the given text. */
  function RenderGuide(s: GuideSettings, t: GuideText): string {
    Render(GuideTemplate(t), GuideValues(s))
  }

  /** The guide for the given options around the given text. */
  function EdgeDeltaGuide(o: EdgeDeltaOptions, t: GuideText): string {
    RenderGuide(ResolveGuide(o), t)
  }

  /** `generateEdgeDeltaGuide`: the guide around the source's own text. The
      lemmas below hold for every text. */
  function GenerateEdgeDeltaGuide(o: EdgeDeltaOptions): string {
    EdgeDeltaGuide(o, SourceGuideText)
  }

  /** The section headings of the guide, in order. */
  function GuideHeadings(t: GuideText): seq<string> {
    [ t.title,
      t.prerequisites.heading,
      t.environment.heading,
      t.pipeline.heading,
      t.validation.heading,
      t.cutover.heading
    ]
  }

  /** Any casing of `staging` selects the staging row and nothing else does;
      any casing of `production` selects the production row. */
  lemma EndpointCaseInsensitive(deployment: string)
    ensures EndpointRecord(deployment) == Staging <==> EqualsIgnoreCase(deployment, "staging")
    ensures EqualsIgnoreCase(deployment, "production") ==> EndpointRecord(deployment) == Production
  {
    ToLowerMatches(deployment, "staging");
    ToLowerMatches(deployment, "production");
  }

  /** Every guide carries all of its section headings. */
  lemma GuideHasHeadings(o: EdgeDeltaOptions, t: GuideText)
    ensures forall h :: h in GuideHeadings(t) ==> Contains(EdgeDeltaGuide(o, t), h)
  {
    var tmpl := GuideTemplate(t);
    forall h | h in GuideHeadings(t)
      ensures Contains(EdgeDeltaGuide(o, t), h)
    {
      assert Fixed(h) in tmpl;
      RenderShowsMember(tmpl, GuideValues(ResolveGuide(o)), Fixed(h));
    }
  }

  /** Where the rendered guide shows the deployment. */
  lemma RenderShowsDeployment(s: GuideSettings, t: GuideText)
    ensures var g := RenderGuide(s, t);
            && Contains(g, t.deploymentLead + s.deployment + "**")
            && Contains(g, t.serviceNameLead + s.deployment + t.serviceNameTail)
            && Contains(g, t.closingLead + s.deployment + t.closingTail)
  {
    var tmpl := GuideTemplate(t);
    RenderShowsMember(tmpl, GuideValues(s), Slot(t.deploymentLead, DeploymentName, "**"));
    RenderShowsMember(tmpl, GuideValues(s), Slot(t.serviceNameLead, DeploymentName, t.serviceNameTail));
    RenderShowsMember(tmpl, GuideValues(s), Slot(t.closingLead, DeploymentName, t.closingTail));
  }

  /** Where the rendered guide shows the endpoint. */
  lemma RenderShowsEndpoint(s: GuideSettings, t: GuideText)
    ensures var g := RenderGuide(s, t);
            && Contains(g, t.endpointLead + s.endpoint + "**")
            && Contains(g, t.endpointVariableLead + s.endpoint + "\"")
            && Contains(g, t.collectorEndpointLead + s.endpoint)
  {
    var tmpl := GuideTemplate(t);
    RenderShowsMember(tmpl, GuideValues(s), Slot(t.endpointLead, EndpointAddress, "**"));
    RenderShowsMember(tmpl, GuideValues(s), Slot(t.endpointVariableLead, EndpointAddress, "\""));
    RenderShowsMember(tmpl, GuideValues(s), Slot(t.collectorEndpointLead, EndpointAddress, ""));
    assert t.collectorEndpointLead + s.endpoint + "" == t.collectorEndpointLead + s.endpoint;
  }

  /** Where the rendered guide shows the protocol. */
  lemma RenderShowsProtocol(s: GuideSettings, t: GuideText)
    ensures var g := RenderGuide(s, t);
            && Contains(g, t.protocolLead + ToUpper(s.protocol.Name()) + "**")
            && Contains(g, t.protocolVariableLead + s.protocol.ExporterSetting())
  {
    var tmpl := GuideTemplate(t);
    RenderShowsMember(tmpl, GuideValues(s), Slot(t.protocolLead, ProtocolLabel, "**"));
    RenderShowsMember(tmpl, GuideValues(s), Slot(t.protocolVariableLead, ExporterProtocol, ""));
    assert t.protocolVariableLead + s.protocol.ExporterSetting() + ""
        == t.protocolVariableLead + s.protocol.ExporterSetting();
  }

  /** The deployment shown in the heading, the service name and the closing
      sentence is the caller's own string (or the default `production`):
      neither the lower-cased lookup key nor the row the lookup fell back to. */
  lemma GuideDisplaysDeployment(o: EdgeDeltaOptions, t: GuideText)
    ensures var d := o.deployment.GetOr("production");
            var g := EdgeDeltaGuide(o, t);
            && Contains(g, t.deploymentLead + d + "**")
            && Contains(g, t.serviceNameLead + d + t.serviceNameTail)
            && Contains(g, t.closingLead + d + t.closingTail)
  {
    RenderShowsDeployment(ResolveGuide(o), t);
  }

  /** One resolved endpoint, looked up from the lower-cased deployment, is
      written into the header, the environment block and the collector
      configuration. */
  lemma GuideShowsEndpoint(o: EdgeDeltaOptions, t: GuideText)
    ensures var e := Endpoint(o.deployment.GetOr("production"), o.protocol.GetOr(Grpc));
            var g := EdgeDeltaGuide(o, t);
            && Contains(g, t.endpointLead + e + "**")
            && Contains(g, t.endpointVariableLead + e + "\"")
            && Contains(g, t.collectorEndpointLead + e)
  {
    RenderShowsEndpoint(ResolveGuide(o), t);
  }

  /** The protocol header shows the upper-cased protocol (`GRPC` when none is
      given), and the exporter protocol is `http/protobuf` exactly for HTTP. */
  lemma GuideShowsProtocol(o: EdgeDeltaOptions, t: GuideText)
    ensures var g := EdgeDeltaGuide(o, t);
            && Contains(g, t.protocolLead + (if o.protocol == Some(Http) then "HTTP" else "GRPC") + "**")
            && Contains(g, t.protocolVariableLead
                           + (if o.protocol == Some(Http) then "http/protobuf" else "grpc"))
  {
    var s := ResolveGuide(o);
    assert ToUpper(s.protocol.Name()) == (if o.protocol == Some(Http) then "HTTP" else "GRPC");
    assert s.protocol.ExporterSetting() == (if o.protocol == Some(Http) then "http/protobuf" else "grpc");
    RenderShowsProtocol(s, t);
  }

  /** With neither option given the guide targets `production` over gRPC. */
  lemma DefaultGuide(o: EdgeDeltaOptions, t: GuideText)
    requires o.deployment.None? && o.protocol.None?
    ensures var g := EdgeDeltaGuide(o, t);
            && Contains(g, t.deploymentLead + "production" + "**")
            && Contains(g, t.endpointLead + Production.grpc + "**")
  {
    var s := ResolveGuide(o);
    assert ToLower("production") == "production";
    assert s.deployment == "production" && s.endpoint == Production.grpc;
    RenderShowsDeployment(s, t);
    RenderShowsEndpoint(s, t);
  }

  /** Any casing of `staging` is displayed as given and configures the
      staging endpoint of the chosen protocol. */
  lemma StagingGuide(o: EdgeDeltaOptions, t: GuideText)
    requires o.deployment.Some? && EqualsIgnoreCase(o.deployment.value, "staging")
    ensures var g := EdgeDeltaGuide(o, t);
            && Contains(g, t.deploymentLead + o.deployment.value + "**")
            && Contains(g, t.endpointLead + Staging.Select(o.protocol.GetOr(Grpc)) + "**")
  {
    var s := ResolveGuide(o);
    EndpointCaseInsensitive(o.deployment.value);
    assert s.deployment == o.deployment.value && s.endpoint == Staging.Select(o.protocol.GetOr(Grpc));
    RenderShowsDeployment(s, t);
    RenderShowsEndpoint(s, t);
  }

  /** A deployment the table lacks is displayed verbatim while the production
      endpoint of the chosen protocol is configured underneath. */
  lemma FallbackGuide(o: EdgeDeltaOptions, t: GuideText)
    requires o.deployment.Some? && ToLower(o.deployment.value) !in DefaultEndpoints
    ensures var g := EdgeDeltaGuide(o, t);
            && Contains(g, t.deploymentLead + o.deployment.value + "**")
            && Contains(g, t.endpointLead + Production.Select(o.protocol.GetOr(Grpc)) + "**")
  {
    var s := ResolveGuide(o);
    assert s.deployment == o.deployment.value && s.endpoint == Production.Select(o.protocol.GetOr(Grpc));
    RenderShowsDeployment(s, t);
    RenderShowsEndpoint(s, t);
  }

  /** Staging over HTTP writes the staging HTTP endpoint,
      `https://otel.staging.edgedelta.com`, into the guide. */
  lemma StagingHttpGuide(o: EdgeDeltaOptions, t: GuideText)
    requires o == EdgeDeltaOptions(Some("staging"), Some(Http))
    ensures Contains(EdgeDeltaGuide(o, t), Staging.http)
  {
    assert EqualsIgnoreCase("staging", "staging");
    StagingGuide(o, t);
    ContainsInfix(t.endpointLead, Staging.http, "**");
    ContainsTransitive(EdgeDeltaGuide(o, t), t.endpointLead + Staging.http + "**", Staging.http);
  }

  /** The same for the guide's own text. */
  lemma SourceGuideStagingHttp()
    ensures Contains(GenerateEdgeDeltaGuide(EdgeDeltaOptions(Some("staging"), Some(Http))), Staging.http)
  {
    StagingHttpGuide(EdgeDeltaOptions(Some("staging"), Some(Http)), SourceGuideText);
  }

  /** `unknown-env` over gRPC keeps `unknown-env` as the displayed deployment
      and resolves to production's gRPC endpoint; `FallbackGuide` places both
      in the guide. */
  lemma UnknownDeploymentResolves()
    ensures ResolveGuide(EdgeDeltaOptions(Some("unknown-env"), Some(Grpc)))
         == GuideSettings("unknown-env", Grpc, "otel.ingest.edgedelta.com:443")
  {
    assert ToLower("unknown-env") == "unknown-env";
  }

  // The lookup as the source writes it.  `DEFAULT_ENDPOINTS` is a plain object
  // literal, so indexing it also reaches the members every object inherits.

  /** What indexing the endpoint object with a key yields: an own row, a
      member inherited from `Object.prototype`, or `undefined`. */
  datatype PropertyLookup = OwnRow(row: Endpoints) | InheritedMember | Missing

  /** The inherited members whose names are entirely lower case, the only
      ones a lower-cased key can name. */
  const InheritedKeys: set<string> := {"constructor", "__proto__"}

  function LookupAsWritten(key: string): PropertyLookup {
    if key in DefaultEndpoints then OwnRow(DefaultEndpoints[key])
    else if key in InheritedKeys then InheritedMember
    else Missing
  }

  /** Endpoint resolution as written: an inherited member is not nullish, so
      the fallback does not apply; it has no `grpc` or `http` property, and
      the template renders the missing value as the text `undefined`.  On
      every other key it agrees with `Endpoint`. */
  function EndpointAsWritten(deployment: string, protocol: Protocol): (r: string)
    ensures ToLower(deployment) !in InheritedKeys ==> r == Endpoint(deployment, protocol)
    ensures ToLower(deployment) in InheritedKeys ==> r !in TableEndpoints
  {
    match LookupAsWritten(ToLower(deployment))
    case OwnRow(e) => e.Select(protocol)
    case InheritedMember => "undefined"
    case Missing => Production.Select(protocol)
  }

  /** `Constructor` lower-cases to an inherited member's name: as written the
      guide's endpoint is `undefined`, while the fallback intended for every
      name outside the table gives the production endpoint. */
  lemma PrototypeKeyCounterexample()
    ensures EndpointAsWritten("Constructor", Grpc) == "undefined"
    ensures EndpointAsWritten("Constructor", Grpc) !in TableEndpoints
    ensures Endpoint("Constructor", Grpc) == "otel.ingest.edgedelta.com:443"
  {
    assert ToLower("Constructor") == "constructor";
  }
}

=== FILE: edge_delta_route.dfy ===
/** The `GET /api/edge-delta` route (app/api/edge-delta/route.ts): how the
    query parameters become the guide's options. */
module EdgeDeltaRoute {
  import opened Wrappers
  import opened Text
  import opened Query
  import opened EdgeDelta

  /** The `protocol` parameter, coerced: exactly the value `http` selects
      HTTP, and anything else, absence included, selects gRPC. */
  function ProtocolParam(raw: Option<string>): (p: Protocol)
    ensures p == Http <==> raw == Some("http")
  {
    if raw == Some("http") then Http else Grpc
  }

  /** The options the route passes on: the deployment as given (absent stays
      absent, because `??` replaces only a missing value) and the coerced
      protocol, which is therefore always present. */
  function GuideOptions(q: Params): (o: EdgeDeltaOptions)
    ensures o.protocol.Some?
  {
    EdgeDeltaOptions(q.Get("deployment"), Some(ProtocolParam(q.Get("protocol"))))
  }

  /** The guide the route responds with, around the text `t`. */
  function GuideResponse(q: Params, t: GuideText): string {
    EdgeDeltaGuide(GuideOptions(q), t)
  }

  /** Coercion recovers every protocol from its own name, and is case
      sensitive: `HTTP` is not `http`. */
  lemma ProtocolParamNames()
    ensures forall p: Protocol :: ProtocolParam(Some(p.Name())) == p
    ensures ProtocolParam(Some("HTTP")) == Grpc
    ensures ProtocolParam(None) == Grpc
  {
    assert "HTTP" != "http" by {
      assert "HTTP"[0] != "http"[0];
    }
  }

  /** Whatever the query, the route resolves one of the four table
      endpoints: the one for the given deployment (or `production`) and the
      coerced protocol. */
  lemma RouteEndpoint(q: Params)
    ensures var s := ResolveGuide(GuideOptions(q));
            && s.protocol == ProtocolParam(q.Get("protocol"))
            && s.deployment == q.Get("deployment").GetOr("production")
            && s.endpoint == Endpoint(s.deployment, s.protocol)
            && s.endpoint in TableEndpoints
  {
  }

  /** Without a `deployment` parameter the generator's default applies: the
      guide targets `production` and its endpoint for the coerced protocol. */
  lemma AbsentDeployment(q: Params, t: GuideText)
    requires q.Get("deployment").None?
    ensures var p := ProtocolParam(q.Get("protocol"));
            var g := GuideResponse(q, t);
            && Contains(g, t.deploymentLead + "production" + "**")
            && Contains(g, t.endpointLead + Production.Select(p) + "**")
  {
    var o := GuideOptions(q);
    assert ToLower("production") == "production";
    GuideDisplaysDeployment(o, t);
    GuideShowsEndpoint(o, t);
  }

  /** An empty `deployment` parameter is passed on as the empty string: the
      heading shows an empty deployment while the production endpoint is
      configured. */
  lemma EmptyDeployment(q: Params, t: GuideText)
    requires q.Get("deployment") == Some("")
    ensures var p := ProtocolParam(q.Get("protocol"));
            var g := GuideResponse(q, t);
            && Contains(g, t.deploymentLead + "**")
            && Contains(g, t.endpointLead + Production.Select(p) + "**")
  {
    var s := ResolveGuide(GuideOptions(q));
    assert s.deployment == "";
    EmptyNameFallsBack(s.protocol);
    RenderShowsDeployment(s, t);
    assert t.deploymentLead + "" + "**" == t.deploymentLead + "**";
    RenderShowsEndpoint(s, t);
  }

  /** The empty deployment name is not a key of the table. */
  lemma EmptyNameFallsBack(p: Protocol)
    ensures Endpoint("", p) == Production.Select(p)
  {
    assert ToLower("") == "";
  }

  /** `?protocol=http` shows HTTP in the guide and configures
      `http/protobuf`; any other value shows gRPC. */
  lemma RouteProtocol(q: Params, t: GuideText)
    ensures var http := q.Get("protocol") == Some("http");
            var g := GuideResponse(q, t);
            && Contains(g, t.protocolLead + (if http then "HTTP" else "GRPC") + "**")
            && Contains(g, t.protocolVariableLead + (if http then "http/protobuf" else "grpc"))
  {
    GuideShowsProtocol(GuideOptions(q), t);
  }
}

=== FILE: mcp_route.dfy ===
/** The MCP tools (app/api/mcp/route.ts): the URL `create-checklist` points
    at, and how `generate-first-step-plan` normalises its data stores before
    calling the generator. The `point-to-edge-delta` tool's protocol
    argument is limited to `grpc` and `http` by its schema, which the
    `Protocol` type of the guide's options already states. */
module McpRoute {
  import opened Wrappers
  import opened Text
  import opened Plan
  import opened Checklist

  const ChecklistPath: string := "/api/checklist"

  /** The URL `create-checklist` tells the agent to download. */
  function ChecklistToolUrl(host: Option<string>): string {
    ApiUrl(host, ChecklistPath)
  }

  /** The download URL sits under the same base URL as the checklist's own
      links: the configured host over HTTPS, or the local server. */
  lemma ChecklistToolUrlShape(host: Option<string>)
    ensures Truthy(host) ==> ChecklistToolUrl(host) == "https://" + host.value + "/api/checklist"
    ensures !Truthy(host) ==> ChecklistToolUrl(host) == "http://localhost:3000/api/checklist"
    ensures var b := BaseUrl(host);
            && StartsWith(ChecklistToolUrl(host), b)
            && StartsWith(LinksFor(host).plan, b)
            && StartsWith(LinksFor(host).guide, b)
  {
    var b := BaseUrl(host);
    LinksShareBase(host);
    assert ChecklistToolUrl(host)[..|b|] == b;
  }

  /** The data-store lambda: an item that already starts with `-` is kept,
      any other gets `- ` in front. */
  function NormalizeStore(item: string): (r: string)
    ensures StartsWith(r, "-")
  {
    if StartsWith(item, "-") then item else "- " + item
  }

  /** `dataStores.map(...)`: every item normalised, in order. */
  function NormalizeStores(items: seq<string>): (r: seq<string>)
    ensures |r| == |items|
    ensures forall i :: 0 <= i < |items| ==> r[i] == NormalizeStore(items[i])
  {
    seq(|items|, i requires 0 <= i < |items| => NormalizeStore(items[i]))
  }

  /** An item is changed exactly when it does not start with `-`, and then
      only by the `- ` put in front of it. */
  lemma NormalizeStoreCases(item: string)
    ensures NormalizeStore(item) == item <==> StartsWith(item, "-")
    ensures !StartsWith(item, "-") ==> NormalizeStore(item) == "- " + item
  {
    if !StartsWith(item, "-") {
      assert |"- " + item| != |item|;
    }
  }

  /** Normalising twice is normalising once. */
  lemma NormalizeIdempotent(items: seq<string>)
    ensures NormalizeStores(NormalizeStores(items)) == NormalizeStores(items)
  {
    var once := NormalizeStores(items);
    forall i | 0 <= i < |once|
      ensures NormalizeStore(once[i]) == once[i]
    {
      NormalizeStoreCases(once[i]);
    }
  }

  /** The input the plan tool passes on: the other fields as given (`??`
      replaces only a missing value), the data stores normalised when there
      is an array, even an empty one, and absent otherwise. */
  function PlanToolInput(args: PlanInput): (input: PlanInput)
    ensures input.dataStores.None? <==> args.dataStores.None?
    ensures input.dataStores.Some? ==>
              var (given, stores) := (args.dataStores.value, input.dataStores.value);
              && |stores| == |given|
              && forall i :: 0 <= i < |stores| ==>
                   StartsWith(stores[i], "-") && (stores[i] == given[i] <==> StartsWith(given[i], "-"))
  {
    if args.dataStores.Some? then
      var items := args.dataStores.value;
      assert forall i :: 0 <= i < |items| ==>
               (StartsWith(items[i], "-") <==> NormalizeStore(items[i]) == items[i]) by {
        forall i | 0 <= i < |items| {
          NormalizeStoreCases(items[i]);
        }
      }
      args.(dataStores := Some(NormalizeStores(items)))
    else args.(dataStores := None)
  }

  /** Only the data stores are touched, and normalising the input a second
      time changes nothing. */
  lemma PlanToolInputStable(args: PlanInput)
    ensures var input := PlanToolInput(args);
            && input.(dataStores := args.dataStores) == args
            && PlanToolInput(input) == input
  {
    if args.dataStores.Some? {
      NormalizeIdempotent(args.dataStores.value);
    }
  }

  /** Each data-store line the plan then shows starts with `- -`; without
      stores, absent or an empty array, the single default line is shown. */
  lemma PlanToolStoreLines(args: PlanInput)
    requires args.dataStores.Some? ==>
               forall i :: 0 <= i < |args.dataStores.value| ==> '\n' !in args.dataStores.value[i]
    ensures var list := ResolvePlan(PlanToolInput(args)).dataStoreList;
            && (args.dataStores.None? || args.dataStores.value == [] ==> list == DefaultDataStoreLine)
            && (args.dataStores.Some? && args.dataStores.value != [] ==>
                  forall i :: 0 <= i < |Split(list, '\n')| ==> StartsWith(Split(list, '\n')[i], "- -"))
  {
    if args.dataStores.Some? && args.dataStores.value != [] {
      var items := args.dataStores.value;
      var stores := NormalizeStores(items);
      forall i | 0 <= i < |stores|
        ensures '\n' !in stores[i]
      {
        assert '\n' !in "- ";
      }
      DataStoreListRendering(stores);
      var lines := Prefixed("- ", stores);
      forall i | 0 <= i < |lines|
        ensures StartsWith(lines[i], "- -")
      {
        assert lines[i] == "- " + stores[i];
        assert stores[i][..1] == "-";
      }
    }
  }
}

=== FILE: plan.dfy ===
/** The first-step instrumentation plan (lib/plan.ts): per-field defaults,
    the framework label, the two bullet lists, and the Markdown plan the
    resolved values are interpolated into. */
module Plan {
  import opened Wrappers
  import opened Text
  import opened Template

  /** `FirstStepPlanInput`: every field optional. */
  datatype PlanInput = PlanInput(
    serviceName: Option<string>,
    language: Option<string>,
    framework: Option<string>,
    deployment: Option<string>,
    prioritySignals: Option<seq<string>>,
    dataStores: Option<seq<string>>)

  /** `DEFAULT_PRIORITY_SIGNALS`. */
  const DefaultPrioritySignals: seq<string> := ["HTTP requests", "background jobs"]

  /** The line shown when no data store is given. */
  const DefaultDataStoreLine: string := "- Document the primary datastore or external dependency"

  const DefaultServiceName: string := "target service"
  const DefaultLanguage: string := "your language/runtime"
  const DefaultDeployment: string := "primary deployment environment"

  /** `frameworkLabel`: the parenthesised framework, or nothing at all when
      the framework is absent or empty. */
  function FrameworkLabel(framework: Option<string>): (r: string)
    ensures r == "" <==> !Truthy(framework)
    ensures Truthy(framework) ==> StartsWith(r, " (") && Contains(r, framework.value)
    ensures Truthy(framework) ==>
              && |r| == |framework.value| + 3
              && r[..2] == " (" && r[2..|r| - 1] == framework.value && r[|r| - 1] == ')'
  {
    if Truthy(framework) then
      ContainsInfix(" (", framework.value, ")");
      " (" + framework.value + ")"
    else ""
  }

  /** `framework || language`. */
  function FrameworkOrLanguage(framework: Option<string>, language: string): string {
    if Truthy(framework) then framework.value else language
  }

  /** One `- ` line per item, in order, joined by newlines. */
  function BulletLines(items: seq<string>): string {
    Join(Prefixed("- ", items), "\n")
  }

  /** The signals the list shows: the given ones, or the default two when
      there are none. */
  function ShownSignals(signals: seq<string>): (r: seq<string>)
    ensures |r| > 0
  {
    if |signals| > 0 then signals else DefaultPrioritySignals
  }

  /** `signalList`. */
  function SignalList(signals: seq<string>): string {
    BulletLines(ShownSignals(signals))
  }

  /** `dataStoreList`: every store gets a `- ` of its own, or the default line
      stands in when there are none. */
  function DataStoreList(stores: seq<string>): string {
    if |stores| > 0 then BulletLines(stores) else DefaultDataStoreLine
  }

  /** The values the plan interpolates. */
  datatype PlanValues = PlanValues(
    serviceName: string,
    language: string,
    frameworkLabel: string,
    deployment: string,
    bootTarget: string,
    signalList: string,
    dataStoreList: string)

  /** Applies each field's default independently, only when it is absent. */
  function ResolvePlan(input: PlanInput): PlanValues {
    var language := input.language.GetOr(DefaultLanguage);
    PlanValues(
      input.serviceName.GetOr(DefaultServiceName),
      language,
      FrameworkLabel(input.framework),
      input.deployment.GetOr(DefaultDeployment),
      FrameworkOrLanguage(input.framework, language),
      SignalList(input.prioritySignals.GetOr(DefaultPrioritySignals)),
      DataStoreList(input.dataStores.GetOr([])))
  }

  /** The fixed fragments of the plan's template literal, in order. The
      lines that interpolate a value are a lead, the value and a tail. */
  datatype PlanText = PlanText(
    title: string,
    serviceLead: string,
    stackLead: string,
    targetLead: string,
    guardrails: Section,
    trafficPathLead: string,
    trafficPathTail: string,
    namespaceStep: string,
    serviceNameAttributeLead: string,
    namespaceAttributeLine: string,
    environmentAttributeLead: string,
    guardrailsMiddle: seq<string>,
    bootstrap: Section,
    sdkStepLead: string,
    sdkStepTail: string,
    bootstrapModuleSteps: seq<string>,
    wireStepLead: string,
    wireStepTail: string,
    requestPath: Section,
    clientStepLead: string,
    clientStepTail: string,
    requestPathClosing: seq<string>,
    metrics: Section,
    dataStores: Section,
    dbSpanLead: string,
    dbSpanTail: string,
    dataStoreClosing: seq<string>,
    validationLoop: Section,
    exitCriteria: Section,
    closing: string)

  /** The plan's own text. */
  const SourcePlanText: PlanText := PlanText(
    title := "# First-Step Otelization Plan",
    serviceLead := "Service: **",
    stackLead := "Stack: **",
    targetLead := "Target environment: **",
    guardrails := Section("## 1. Establish Observability Guardrails", [""]),
    trafficPathLead := "1. Confirm the expected traffic path for ",
    trafficPathTail := " and capture an example request you can replay.",
    namespaceStep := "2. Decide the telemetry namespace values:",
    serviceNameAttributeLead := "   - `service.name` = ",
    namespaceAttributeLine := "   - `service.namespace` = owning domain or team",
    environmentAttributeLead := "   - `deployment.environment` = ",
    guardrailsMiddle := [
      "3. Freeze current logging configuration for reference (existing loggers, formats, sinks).",
      "4. List the first critical signal pathways to cover:"],
    bootstrap := Section("## 2. Bootstrap OpenTelemetry Runtime", [""]),
    sdkStepLead := "1. Add the core OpenTelemetry SDK, auto-instrumentation agent (if available for ",
    sdkStepTail := "), and OTLP exporters.",
    bootstrapModuleSteps := [
      "2. Create `otel/bootstrap` module that:",
      "   - Registers resource attributes with `service.name` and team metadata.",
      "   - Configures the tracer provider with batch span processor + OTLP exporter (HTTP or gRPC).",
      "   - Registers metric reader/exporter pair (periodic reader + OTLP exporter).",
      "   - Enables log bridge/exporter so logs can flow through OTLP as well as existing sinks."],
    wireStepLead := "3. Wire the bootstrap module into the process entrypoint (for ",
    wireStepTail := ", load it before the framework initializes).",
    requestPath := Section("## 3. Instrument Critical Request Path", [
      "",
      "1. Wrap inbound request handling with middleware that starts a root span (HTTP server span) and records HTTP attributes.",
      "2. Propagate context to downstream calls:"]),
    clientStepLead := "   - Add instrumentation for ",
    clientStepTail := " HTTP clients or gRPC clients.",
    requestPathClosing := [
      "   - Ensure propagation headers (traceparent, tracestate, baggage) are forwarded.",
      "3. Record application-specific span attributes (tenant, feature flag, user id hash) using safe PII practices.",
      "4. Emit structured logs through the OpenTelemetry logger with trace/span ids attached.",
      ""],
    metrics := Section("## 4. Metrics Quick Wins", [
      "",
      "1. Register a counter for successful requests and another for failed requests (label by status class).",
      "2. Record latency via a histogram (bucket boundaries tuned for your SLO).",
      "3. Capture infrastructure signals that already exist (CPU, memory) by scraping from runtime/host collectors, or expose them via OTEL metrics if absent.",
      "4. Tag metrics with dimensions that Edge Delta analytics will need (environment, region, commit sha).",
      ""]),
    dataStores := Section("## 5. Data Store Touchpoints", [
      "",
      "Instrument the first datastore interactions to close trace gaps:"]),
    dbSpanLead := "- Wrap the datastore client with trace spans named `db.",
    dbSpanTail := "`.",
    dataStoreClosing := [
      "- Add span events for slow queries or retries.",
      "- Emit query/operation metrics where useful (cardinality controlled).",
      ""],
    validationLoop := Section("## 6. Local Validation Loop", [
      "",
      "1. Run a local or staging instance with OTEL exporting to a throwaway collector (point `OTEL_EXPORTER_OTLP_ENDPOINT` to `http://localhost:4318`).",
      "2. Replay the captured request and confirm:",
      "   - Trace spans appear with expected hierarchy.",
      "   - Metrics contain correct service metadata.",
      "   - Logs include trace/span ids and enriched fields.",
      "3. Fix any missing propagation (look for spans marked as root when they should be children).",
      ""]),
    exitCriteria := Section("## 7. Exit Criteria For Phase 2", [
      "",
      "- Application boots with OpenTelemetry enabled and no startup errors.",
      "- Inbound request path emits trace + log + metric for the happy path and error path.",
      "- Telemetry volume is within expected cardinality limits.",
      "- Documentation exists for toggling instrumentation on/off via environment variables.",
      ""]),
    closing := "Once these items are complete, move to Phase 3 for broader coverage and prepare to connect to Edge Delta.")

  /** The values the plan interpolates. */
  datatype PlanSlot = ServiceName | Stack | Language | Environment | BootTarget | Signals | DataStores

  /** What each slot shows; the stack is the language followed by the
      framework label. */
  function PlanValue(v: PlanValues, k: PlanSlot): string {
    match k
    case ServiceName => v.serviceName
    case Stack => v.language + v.frameworkLabel
    case Language => v.language
    case Environment => v.deployment
    case BootTarget => v.bootTarget
    case Signals => v.signalList
    case DataStores => v.dataStoreList
  }

  function PlanValueOf(v: PlanValues): PlanSlot -> string {
    k => PlanValue(v, k)
  }

  /** Title and the service, stack and environment lines. */
  function HeaderLines(t: PlanText): seq<Line<PlanSlot>> {
    [ Fixed(t.title),
      Fixed(""),
      Slot(t.serviceLead, ServiceName, "**"),
      Slot(t.stackLead, Stack, "**"),
      Slot(t.targetLead, Environment, "**"),
      Fixed("")
    ]
  }

  /** Section 1: naming values and the priority signal list. */
  function GuardrailsLines(t: PlanText): seq<Line<PlanSlot>> {
    SectionLines(t.guardrails)
    + [ Slot(t.trafficPathLead, ServiceName, t.trafficPathTail),
        Fixed(t.namespaceStep),
        Slot(t.serviceNameAttributeLead, ServiceName, ""),
        Fixed(t.namespaceAttributeLine),
        Slot(t.environmentAttributeLead, Environment, "")
      ]
    + FixedLines(t.guardrailsMiddle)
    + [Slot("", Signals, ""), Fixed("")]
  }

  /** Section 2: SDK bootstrap for the runtime or framework. */
  function BootstrapLines(t: PlanText): seq<Line<PlanSlot>> {
    SectionLines(t.bootstrap)
    + [Slot(t.sdkStepLead, Language, t.sdkStepTail)]
    + FixedLines(t.bootstrapModuleSteps)
    + [Slot(t.wireStepLead, BootTarget, t.wireStepTail), Fixed("")]
  }

  /** Section 3: request-path instrumentation. */
  function RequestPathLines(t: PlanText): seq<Line<PlanSlot>> {
    SectionLines(t.requestPath)
    + [Slot(t.clientStepLead, BootTarget, t.clientStepTail)]
    + FixedLines(t.requestPathClosing)
  }

  /** Section 5: the data-store list and the span naming. */
  function DataStoreLines(t: PlanText): seq<Line<PlanSlot>> {
    SectionLines(t.dataStores)
    + [Slot("", DataStores, ""), Fixed(""), Slot(t.dbSpanLead, ServiceName, t.dbSpanTail)]
    + FixedLines(t.dataStoreClosing)
  }

  /** The plan's template literal, line by line; each list is one slot
      holding all of its lines. */
  function PlanTemplate(t: PlanText): seq<Line<PlanSlot>> {
    HeaderLines(t)
    + GuardrailsLines(t)
    + BootstrapLines(t)
    + RequestPathLines(t)
    + SectionLines(t.metrics)
    + DataStoreLines(t)
    + SectionLines(t.validationLoop)
    + SectionLines(t.exitCriteria)
    + [Fixed(t.closing)]
  }

  /** The Markdown plan for the resolved values, around the given text. */
  function RenderPlan(v: PlanValues, t: PlanText): string {
    Render(PlanTemplate(t), PlanValueOf(v))
  }

  /** The plan for the given input around the given text. */
  function FirstStepPlan(input: PlanInput, t: PlanText): string {
    RenderPlan(ResolvePlan(input), t)
  }

  /** `generateFirstStepPlan`: the plan around the source's own text. The
      lemmas below hold for every text. */
  function GenerateFirstStepPlan(input: PlanInput): string {
    FirstStepPlan(input, SourcePlanText)
  }

  /** The section headings of the plan, in order. */
  function PlanHeadings(t: PlanText): seq<string> {
    [ t.title,
      t.guardrails.heading,
      t.bootstrap.heading,
      t.requestPath.heading,
      t.metrics.heading,
      t.dataStores.heading,
      t.validationLoop.heading,
      t.exitCriteria.heading
    ]
  }

  /** No line of a bullet list breaks, so the list has exactly one line per
      item, in input order, each the item behind `- `. */
  lemma BulletLinesSplit(items: seq<string>)
    requires |items| > 0
    requires forall i :: 0 <= i < |items| ==> '\n' !in items[i]
    ensures Split(BulletLines(items), '\n') == Prefixed("- ", items)
    ensures |Split(BulletLines(items), '\n')| == |items|
  {
    var lines := Prefixed("- ", items);
    forall i | 0 <= i < |lines|
      ensures '\n' !in lines[i]
    {
      assert lines[i] == "- " + items[i];
    }
    SplitJoin(lines, '\n');
  }

  /** Each bullet line occurs in the rendered list. */
  lemma BulletLinesContain(items: seq<string>, k: nat)
    requires k < |items|
    ensures Contains(BulletLines(items), "- " + items[k])
  {
    JoinContains(Prefixed("- ", items), "\n", k, "- " + items[k]);
  }

  /** The signal list has one `- ` line per signal, in order; an empty list
      shows the default signals instead. */
  lemma SignalListRendering(signals: seq<string>)
    requires forall i :: 0 <= i < |signals| ==> '\n' !in signals[i]
    ensures Split(SignalList(signals), '\n') == Prefixed("- ", ShownSignals(signals))
  {
    if |signals| == 0 {
      assert '\n' !in DefaultPrioritySignals[0] && '\n' !in DefaultPrioritySignals[1];
    }
    BulletLinesSplit(ShownSignals(signals));
  }

  /** A two-item list is its two bullets around one line break. */
  lemma BulletLinesPair(x: string, y: string)
    ensures BulletLines([x, y]) == "- " + x + "\n" + "- " + y
  {
    var lines := Prefixed("- ", [x, y]);
    assert lines[1..] == ["- " + y];
    assert Join(lines, "\n") == ("- " + x) + "\n" + ("- " + y);
  }

  /** Without signals the list is exactly the two default lines. */
  lemma DefaultSignalList()
    ensures SignalList([]) == "- HTTP requests\n- background jobs"
  {
    BulletLinesPair("HTTP requests", "background jobs");
  }

  /** An empty store list renders the single default line; otherwise every
      store, already bulleted or not, gets a `- ` of its own, one line each. */
  lemma DataStoreListRendering(stores: seq<string>)
    requires forall i :: 0 <= i < |stores| ==> '\n' !in stores[i]
    ensures |stores| == 0 ==> DataStoreList(stores) == DefaultDataStoreLine
    ensures |stores| > 0 ==> Split(DataStoreList(stores), '\n') == Prefixed("- ", stores)
  {
    if |stores| > 0 {
      BulletLinesSplit(stores);
    }
  }

  /** A store written as a bullet comes out double-bulleted. */
  lemma PreBulletedStoreDoubled(stores: seq<string>, k: nat)
    requires k < |stores| && StartsWith(stores[k], "- ")
    ensures Contains(DataStoreList(stores), "- " + stores[k])
    ensures StartsWith("- " + stores[k], "- - ")
  {
    BulletLinesContain(stores, k);
    assert ("- " + stores[k])[..4] == "- " + stores[k][..2];
  }

  /** Each line of a part of the template occurs, filled in, in the plan. */
  lemma RenderShowsPart(v: PlanValues, t: PlanText, line: Line<PlanSlot>)
    requires line in HeaderLines(t) || line in GuardrailsLines(t) || line in BootstrapLines(t)
          || line in RequestPathLines(t) || line in DataStoreLines(t)
    ensures Contains(RenderPlan(v, t), Fill(line, PlanValueOf(v)))
  {
    RenderShowsMember(PlanTemplate(t), PlanValueOf(v), line);
  }

  /** The header shows the service, the stack and the environment. */
  lemma RenderShowsHeader(v: PlanValues, t: PlanText)
    ensures var p := RenderPlan(v, t);
            && Contains(p, t.serviceLead + v.serviceName + "**")
            && Contains(p, t.stackLead + v.language + v.frameworkLabel + "**")
            && Contains(p, t.targetLead + v.deployment + "**")
  {
    var h := HeaderLines(t);
    assert h[2] == Slot(t.serviceLead, ServiceName, "**");
    assert h[3] == Slot(t.stackLead, Stack, "**");
    assert h[4] == Slot(t.targetLead, Environment, "**");
    RenderShowsPart(v, t, h[2]);
    RenderShowsPart(v, t, h[3]);
    RenderShowsPart(v, t, h[4]);
    assert t.stackLead + (v.language + v.frameworkLabel) + "**"
        == t.stackLead + v.language + v.frameworkLabel + "**";
  }

  /** The bootstrap and client-instrumentation steps name the boot target. */
  lemma RenderShowsBootTarget(v: PlanValues, t: PlanText)
    ensures var p := RenderPlan(v, t);
            && Contains(p, t.wireStepLead + v.bootTarget + t.wireStepTail)
            && Contains(p, t.clientStepLead + v.bootTarget + t.clientStepTail)
  {
    var wire := Slot(t.wireStepLead, BootTarget, t.wireStepTail);
    var client := Slot(t.clientStepLead, BootTarget, t.clientStepTail);
    assert BootstrapLines(t)[|BootstrapLines(t)| - 2] == wire;
    assert RequestPathLines(t)[|t.requestPath.body| + 1] == client;
    RenderShowsPart(v, t, wire);
    RenderShowsPart(v, t, client);
  }

  /** The signal list is interpolated whole. */
  lemma RenderShowsSignals(v: PlanValues, t: PlanText)
    ensures Contains(RenderPlan(v, t), v.signalList)
  {
    var signals := Slot("", Signals, "");
    assert signals in GuardrailsLines(t);
    RenderShowsPart(v, t, signals);
    FillBare(signals, PlanValueOf(v));
  }

  /** The data-store list is interpolated whole. */
  lemma RenderShowsDataStores(v: PlanValues, t: PlanText)
    ensures Contains(RenderPlan(v, t), v.dataStoreList)
  {
    var stores := Slot("", DataStores, "");
    assert stores in DataStoreLines(t);
    RenderShowsPart(v, t, stores);
    FillBare(stores, PlanValueOf(v));
  }

  /** Every plan carries all of its section headings. */
  lemma PlanHasHeadings(input: PlanInput, t: PlanText)
    ensures forall h :: h in PlanHeadings(t) ==> Contains(FirstStepPlan(input, t), h)
  {
    var tmpl := PlanTemplate(t);
    forall h | h in PlanHeadings(t)
      ensures Contains(FirstStepPlan(input, t), h)
    {
      assert Fixed(h) in tmpl;
      RenderShowsMember(tmpl, PlanValueOf(ResolvePlan(input)), Fixed(h));
    }
  }

  /** Service name, language and deployment each fall back to their own
      default only when absent; a given value, even an empty one, is shown
      as given. The stack line is the language followed by the framework
      label. */
  lemma PlanShowsScalars(input: PlanInput, t: PlanText)
    ensures var p := FirstStepPlan(input, t);
            && Contains(p, t.serviceLead + input.serviceName.GetOr(DefaultServiceName) + "**")
            && Contains(p, t.stackLead + input.language.GetOr(DefaultLanguage) + FrameworkLabel(input.framework) + "**")
            && Contains(p, t.targetLead + input.deployment.GetOr(DefaultDeployment) + "**")
  {
    RenderShowsHeader(ResolvePlan(input), t);
  }

  /** The bootstrap and client-instrumentation steps name the framework when
      it is non-empty and the language otherwise. */
  lemma PlanShowsBootTarget(input: PlanInput, t: PlanText)
    ensures var b := if Truthy(input.framework) then input.framework.value
                     else input.language.GetOr(DefaultLanguage);
            var p := FirstStepPlan(input, t);
            && Contains(p, t.wireStepLead + b + t.wireStepTail)
            && Contains(p, t.clientStepLead + b + t.clientStepTail)
  {
    RenderShowsBootTarget(ResolvePlan(input), t);
  }

  /** A given service name appears in the plan. */
  lemma PlanShowsServiceName(input: PlanInput, t: PlanText)
    requires input.serviceName.Some?
    ensures Contains(FirstStepPlan(input, t), input.serviceName.value)
  {
    var n := input.serviceName.value;
    RenderShowsHeader(ResolvePlan(input), t);
    ContainsInfix(t.serviceLead, n, "**");
    ContainsTransitive(FirstStepPlan(input, t), t.serviceLead + n + "**", n);
  }

  /** Each priority signal appears in the plan behind `- `; with none given
      the default signals do. */
  lemma PlanShowsSignal(input: PlanInput, t: PlanText, k: nat)
    requires k < |ShownSignals(input.prioritySignals.GetOr(DefaultPrioritySignals))|
    ensures var shown := ShownSignals(input.prioritySignals.GetOr(DefaultPrioritySignals));
            Contains(FirstStepPlan(input, t), "- " + shown[k])
  {
    var signals := input.prioritySignals.GetOr(DefaultPrioritySignals);
    RenderShowsSignals(ResolvePlan(input), t);
    BulletLinesContain(ShownSignals(signals), k);
    ContainsTransitive(FirstStepPlan(input, t), SignalList(signals), "- " + ShownSignals(signals)[k]);
  }

  /** Each given data store appears in the plan behind `- `, so the text of
      every store line the caller passed is in the plan. */
  lemma PlanShowsDataStore(input: PlanInput, t: PlanText, k: nat)
    requires input.dataStores.Some? && k < |input.dataStores.value|
    ensures Contains(FirstStepPlan(input, t), "- " + input.dataStores.value[k])
    ensures Contains(FirstStepPlan(input, t), input.dataStores.value[k])
  {
    var stores := input.dataStores.value;
    var p := FirstStepPlan(input, t);
    RenderShowsDataStores(ResolvePlan(input), t);
    BulletLinesContain(stores, k);
    ContainsTransitive(p, DataStoreList(stores), "- " + stores[k]);
    ContainsInfix("- ", stores[k], "");
    assert "- " + stores[k] + "" == "- " + stores[k];
    ContainsTransitive(p, "- " + stores[k], stores[k]);
  }

  /** Without data stores the plan shows the default data-store line. */
  lemma PlanShowsDefaultDataStore(input: PlanInput, t: PlanText)
    requires input.dataStores.None? || input.dataStores.value == []
    ensures Contains(FirstStepPlan(input, t), DefaultDataStoreLine)
  {
    RenderShowsDataStores(ResolvePlan(input), t);
  }
}

=== FILE: plan_route.dfy ===
/** The `GET /api/plan` route (app/api/plan/route.ts): how the query
    parameters become the plan's input. */
module PlanRoute {
  import opened Wrappers
  import opened Text
  import opened Query
  import opened Plan

  /** `value.split(",").map((item) => item.trim())`: the comma-separated
      pieces, each trimmed, in the order they were written. */
  function SplitTrim(v: string): (items: seq<string>)
    ensures |items| == Occurrences(v, ',') + 1
    ensures forall i :: 0 <= i < |items| ==> items[i] == Trim(Split(v, ',')[i])
  {
    var pieces := Split(v, ',');
    seq(|pieces|, i requires 0 <= i < |pieces| => Trim(pieces[i]))
  }

  /** The `prioritySignals` parameter: absent when missing or empty, else
      one trimmed signal per comma-separated piece. */
  function SignalsParam(raw: Option<string>): (r: Option<seq<string>>)
    ensures r.None? <==> !Truthy(raw)
    ensures r.Some? ==>
              && |r.value| == Occurrences(raw.value, ',') + 1
              && forall i :: 0 <= i < |r.value| ==> Trimmed(r.value[i])
  {
    if Truthy(raw) then
      SplitTrimJoin(raw.value);
      Some(SplitTrim(raw.value))
    else None
  }

  /** The `dataStores` parameter: absent when missing or empty, else one
      store per comma-separated piece, each a trimmed piece behind `- `. */
  function StoresParam(raw: Option<string>): (r: Option<seq<string>>)
    ensures r.None? <==> !Truthy(raw)
    ensures r.Some? ==>
              && |r.value| == Occurrences(raw.value, ',') + 1
              && forall i :: 0 <= i < |r.value| ==>
                   StartsWith(r.value[i], "- ") && Trimmed(r.value[i][2..])
  {
    if Truthy(raw) then
      var items := SplitTrim(raw.value);
      SplitTrimJoin(raw.value);
      var stores := Prefixed("- ", items);
      assert forall i :: 0 <= i < |stores| ==> stores[i][..2] == "- " && stores[i][2..] == items[i];
      Some(stores)
    else None
  }

  /** The input the route passes to the generator. The scalar parameters go
      through `??`, which replaces only a missing value. */
  function PlanRequest(q: Params): PlanInput {
    PlanInput(
      serviceName := q.Get("serviceName"),
      language := q.Get("language"),
      framework := q.Get("framework"),
      deployment := q.Get("deployment"),
      prioritySignals := SignalsParam(q.Get("prioritySignals")),
      dataStores := StoresParam(q.Get("dataStores")))
  }

  /** The plan the route responds with, around the text `t`. */
  function PlanResponse(q: Params, t: PlanText): string {
    FirstStepPlan(PlanRequest(q), t)
  }

  /** Pieces without white space around them come out unchanged. */
  lemma SplitTrimTidy(v: string)
    requires forall i :: 0 <= i < |Split(v, ',')| ==> Trimmed(Split(v, ',')[i])
    ensures SplitTrim(v) == Split(v, ',')
  {
    var pieces := Split(v, ',');
    var items := SplitTrim(v);
    forall i | 0 <= i < |items|
      ensures items[i] == pieces[i]
    {
      TrimTrimmed(pieces[i]);
    }
  }

  /** Every piece comes out trimmed, and when no piece had white space around
      it, joining the pieces with commas gives back the parameter: splitting
      keeps every piece, in order, including the empty ones. */
  lemma SplitTrimJoin(v: string)
    ensures forall i :: 0 <= i < |SplitTrim(v)| ==> Trimmed(SplitTrim(v)[i])
    ensures (forall i :: 0 <= i < |Split(v, ',')| ==> Trimmed(Split(v, ',')[i])) ==>
              Join(SplitTrim(v), ",") == v
  {
    var pieces := Split(v, ',');
    var items := SplitTrim(v);
    forall i | 0 <= i < |items|
      ensures Trimmed(items[i])
    {
      TrimIdempotent(pieces[i]);
    }
    if forall i :: 0 <= i < |pieces| ==> Trimmed(pieces[i]) {
      SplitTrimTidy(v);
      JoinSplit(v, ',');
    }
  }

  /** A present scalar parameter, even an empty one, is used as given; an
      absent one leaves the generator's default in place. */
  lemma RouteScalars(q: Params)
    ensures var v := ResolvePlan(PlanRequest(q));
            && v.serviceName == (if q.Get("serviceName").Some? then q.Get("serviceName").value else DefaultServiceName)
            && v.language == (if q.Get("language").Some? then q.Get("language").value else DefaultLanguage)
            && v.deployment == (if q.Get("deployment").Some? then q.Get("deployment").value else DefaultDeployment)
  {
  }

  /** Without a line break in the parameter, the signal list has one `- `
      line per comma-separated piece, trimmed, in the order written; a
      missing or empty parameter gives the two default signals. */
  lemma RouteSignals(q: Params)
    requires '\n' !in q.Get("prioritySignals").GetOr("")
    ensures var raw := q.Get("prioritySignals");
            Split(ResolvePlan(PlanRequest(q)).signalList, '\n')
              == Prefixed("- ", if Truthy(raw) then SplitTrim(raw.value) else DefaultPrioritySignals)
  {
    var raw := q.Get("prioritySignals");
    if Truthy(raw) {
      SignalsFromParam(raw.value);
    } else {
      SignalListRendering([]);
    }
  }

  /** Signals taken from a parameter without line breaks render one line
      per piece. */
  lemma SignalsFromParam(v: string)
    requires '\n' !in v
    ensures Split(SignalList(SplitTrim(v)), '\n') == Prefixed("- ", SplitTrim(v))
  {
    PiecesSingleLine(v);
    SignalListRendering(SplitTrim(v));
  }

  /** No trimmed piece of a parameter without line breaks has one. */
  lemma PiecesSingleLine(v: string)
    requires '\n' !in v
    ensures forall i :: 0 <= i < |SplitTrim(v)| ==> '\n' !in SplitTrim(v)[i]
  {
    var pieces := Split(v, ',');
    SplitKeeps(v, ',', '\n');
    forall i | 0 <= i < |pieces|
      ensures '\n' !in Trim(pieces[i])
    {
      TrimKeeps(pieces[i], '\n');
    }
  }

  /** Bulleting adds no line break. */
  lemma BulletedSingleLine(items: seq<string>)
    requires forall i :: 0 <= i < |items| ==> '\n' !in items[i]
    ensures forall i :: 0 <= i < |items| ==> '\n' !in Prefixed("- ", items)[i]
  {
    var lines := Prefixed("- ", items);
    forall i | 0 <= i < |items|
      ensures '\n' !in lines[i]
    {
      assert lines[i] == "- " + items[i];
    }
  }

  /** Bulleting twice puts `- - ` in front of every item. */
  lemma DoubleBullets(items: seq<string>)
    ensures forall i :: 0 <= i < |items| ==> StartsWith(Prefixed("- ", Prefixed("- ", items))[i], "- - ")
  {
    var lines := Prefixed("- ", Prefixed("- ", items));
    forall i | 0 <= i < |items|
      ensures StartsWith(lines[i], "- - ")
    {
      assert lines[i] == "- - " + items[i];
    }
  }

  /** Stores taken from a parameter without line breaks render one line
      per piece, each behind `- - `. */
  lemma StoresFromParam(v: string)
    requires '\n' !in v
    ensures var items := SplitTrim(v);
            var lines := Split(DataStoreList(Prefixed("- ", items)), '\n');
            && lines == Prefixed("- ", Prefixed("- ", items))
            && forall i :: 0 <= i < |lines| ==> StartsWith(lines[i], "- - ")
  {
    var items := SplitTrim(v);
    PiecesSingleLine(v);
    BulletedSingleLine(items);
    DataStoreListRendering(Prefixed("- ", items));
    DoubleBullets(items);
  }

  /** Without a line break in the parameter, every data-store line starts
      with `- - `: the route bullets each piece and the generator bullets it
      again. A missing or empty parameter gives the single default line. */
  lemma RouteDataStores(q: Params)
    requires '\n' !in q.Get("dataStores").GetOr("")
    ensures var raw := q.Get("dataStores");
            var list := ResolvePlan(PlanRequest(q)).dataStoreList;
            && (!Truthy(raw) ==> list == DefaultDataStoreLine)
            && (Truthy(raw) ==>
                  && Split(list, '\n') == Prefixed("- ", Prefixed("- ", SplitTrim(raw.value)))
                  && forall i :: 0 <= i < |Split(list, '\n')| ==> StartsWith(Split(list, '\n')[i], "- - "))
  {
    var raw := q.Get("dataStores");
    if Truthy(raw) {
      StoresFromParam(raw.value);
    }
  }

  /** `a,,b` splits into three pieces, the middle one empty. */
  lemma SplitEmptyPiece()
    ensures Split("a,,b", ',') == ["a", "", "b"]
  {
    assert "a,,b" == "a" + [','] + ",b";
    assert ",b" == "" + [','] + "b";
    SplitFree("b", ',');
    SplitSeparated("", "b", ',');
    SplitSeparated("a", ",b", ',');
  }

  /** An empty piece survives as an empty item: `a,,b` gives three. */
  lemma EmptyPieceKept()
    ensures SplitTrim("a,,b") == ["a", "", "b"]
  {
    SplitEmptyPiece();
    var pieces := Split("a,,b", ',');
    assert !IsSpace('a') && !IsSpace('b');
    assert Trimmed(pieces[0]) && Trimmed(pieces[1]) && Trimmed(pieces[2]);
    SplitTrimTidy("a,,b");
  }

  /** The empty item shows as a bare `- ` line. */
  lemma EmptyPieceShown()
    ensures SignalList(["a", "", "b"]) == "- a\n- \n- b"
  {
    var lines := Prefixed("- ", ["a", "", "b"]);
    assert lines[0] == "- " + "a" == "- a";
    assert lines[1] == "- " + "" == "- ";
    assert lines[2] == "- " + "b" == "- b";
    assert lines == ["- a", "- ", "- b"];
    assert lines[1..] == ["- ", "- b"] && lines[2..] == ["- b"];
  }
}

=== FILE: query.dfy ===
/** The query string of a request, after percent-decoding: its name/value
    pairs in the order they were written. */
module Query {
  import opened Wrappers

  datatype Params = Params(pairs: seq<(string, string)>) {

    /** `URLSearchParams.get`: the value of the first pair named `name`, or
        nothing when no pair has that name. */
    function Get(name: string): (r: Option<string>)
      ensures r.None? <==> forall i :: 0 <= i < |pairs| ==> pairs[i].0 != name
      ensures r.Some? ==> exists i :: 0 <= i < |pairs| && pairs[i] == (name, r.value)
                                      && forall j :: 0 <= j < i ==> pairs[j].0 != name
      decreases |pairs|
    {
      if |pairs| == 0 then None
      else if pairs[0].0 == name then Some(pairs[0].1)
      else
        var rest := Params(pairs[1..]).Get(name);
        assert rest.Some? ==> exists i :: 0 <= i < |pairs[1..]| && pairs[1..][i] == (name, rest.value)
                                            && forall j :: 0 <= j < i ==> pairs[1..][j].0 != name;
        rest
    }
  }
}

=== FILE: template.dfy ===
/** The shape shared by the three Markdown generators: a template literal
    whose lines are either fixed prose or one value interpolated between a
    fixed lead and a fixed tail. The fixed prose is opaque to every lemma
    here; only the positions of the interpolated values matter. */
module Template {
  import opened Text

  /** One line of a template. `K` names the values a template interpolates. */
  datatype Line<K> = Fixed(text: string) | Slot(lead: string, key: K, tail: string)

  /** The text of one line once the values are known. */
  function Fill<K>(line: Line<K>, value: K -> string): string {
    match line
    case Fixed(text) => text
    case Slot(lead, key, tail) => lead + value(key) + tail
  }

  /** Every line filled in, in order. */
  function Lines<K>(t: seq<Line<K>>, value: K -> string): (r: seq<string>)
    ensures |r| == |t|
    ensures forall i :: 0 <= i < |t| ==> r[i] == Fill(t[i], value)
  {
    seq(|t|, i requires 0 <= i < |t| => Fill(t[i], value))
  }

  /** The document: the filled lines joined by newlines, as a template
      literal spanning several source lines produces it. */
  function Render<K>(t: seq<Line<K>>, value: K -> string): string {
    Join(Lines(t, value), "\n")
  }

  /** Fixed lines, one per string. */
  function FixedLines<K>(xs: seq<string>): (r: seq<Line<K>>)
    ensures |r| == |xs|
    ensures forall i :: 0 <= i < |xs| ==> r[i] == Fixed(xs[i])
  {
    seq(|xs|, i requires 0 <= i < |xs| => Fixed(xs[i]))
  }

  /** A heading followed by fixed lines: a stretch of prose that
      interpolates nothing. */
  datatype Section = Section(heading: string, body: seq<string>)

  function SectionLines<K>(s: Section): (r: seq<Line<K>>)
    ensures |r| == |s.body| + 1 && r[0] == Fixed(s.heading)
    ensures forall i :: 0 <= i < |s.body| ==> r[i + 1] == Fixed(s.body[i])
  {
    [Fixed(s.heading)] + FixedLines(s.body)
  }

  /** A slot with neither lead nor tail is its value alone. */
  lemma FillBare<K>(line: Line<K>, value: K -> string)
    requires line.Slot? && line.lead == "" && line.tail == ""
    ensures Fill(line, value) == value(line.key)
  {
    assert "" + value(line.key) + "" == value(line.key);
  }

  /** Every line of the template occurs, filled in, in the document. */
  lemma RenderShowsLine<K>(t: seq<Line<K>>, value: K -> string, k: nat)
    requires k < |t|
    ensures Contains(Render(t, value), Fill(t[k], value))
  {
    JoinContains(Lines(t, value), "\n", k, Fill(t[k], value));
  }

  /** Whichever line of the template it is, its filled-in text occurs in
      the document. */
  lemma RenderShowsMember<K>(t: seq<Line<K>>, value: K -> string, line: Line<K>)
    requires line in t
    ensures Contains(Render(t, value), Fill(line, value))
  {
    var k :| 0 <= k < |t| && t[k] == line;
    RenderShowsLine(t, value, k);
  }

  /** Every slot shows its value between its lead and its tail, and so the
      value itself occurs in the document. */
  lemma RenderShowsSlot<K>(t: seq<Line<K>>, value: K -> string, k: nat)
    requires k < |t| && t[k].Slot?
    ensures Contains(Render(t, value), t[k].lead + value(t[k].key) + t[k].tail)
    ensures Contains(Render(t, value), value(t[k].key))
  {
    var line := t[k].lead + value(t[k].key) + t[k].tail;
    RenderShowsLine(t, value, k);
    ContainsInfix(t[k].lead, value(t[k].key), t[k].tail);
    ContainsTransitive(Render(t, value), line, value(t[k].key));
  }

  /** How many slots of the template are keyed `key`. */
  function SlotCount<K(==)>(t: seq<Line<K>>, key: K): (n: nat)
    ensures n <= |t|
    decreases |t|
  {
    if |t| == 0 then 0
    else (if t[0].Slot? && t[0].key == key then 1 else 0) + SlotCount(t[1..], key)
  }

  /** A template's slots keyed `key` are those of its two halves together. */
  lemma {:induction false} SlotCountAppend<K>(a: seq<Line<K>>, b: seq<Line<K>>, key: K)
    ensures SlotCount(a + b, key) == SlotCount(a, key) + SlotCount(b, key)
    decreases |a|
  {
    if |a| == 0 {
      assert a + b == b;
    } else {
      SlotCountAppend(a[1..], b, key);
      assert (a + b)[0] == a[0];
      assert (a + b)[1..] == a[1..] + b;
    }
  }

  /** Fixed prose interpolates nothing. */
  lemma {:induction false} SlotCountFixed<K>(xs: seq<string>, key: K)
    ensures SlotCount(FixedLines<K>(xs), key) == 0
    decreases |xs|
  {
    if |xs| > 0 {
      SlotCountFixed(xs[1..], key);
      assert FixedLines<K>(xs)[1..] == FixedLines<K>(xs[1..]);
    }
  }

  /** Filling in two pieces of a template fills in the whole. */
  lemma LinesAppend<K>(a: seq<Line<K>>, b: seq<Line<K>>, value: K -> string)
    ensures Lines(a + b, value) == Lines(a, value) + Lines(b, value)
  {
  }

  /** The line has no occurrence of `c` in its fixed parts. */
  predicate Free<K>(line: Line<K>, c: char) {
    match line
    case Fixed(text) => c !in text
    case Slot(lead, _, tail) => c !in lead && c !in tail
  }

  /** When neither the fixed parts nor the values break a line, the lines of
      the document are exactly the filled-in lines of the template. */
  lemma RenderLines<K>(t: seq<Line<K>>, value: K -> string)
    requires |t| > 0
    requires forall i :: 0 <= i < |t| ==> Free(t[i], '\n')
    requires forall k :: '\n' !in value(k)
    ensures Split(Render(t, value), '\n') == Lines(t, value)
  {
    var lines := Lines(t, value);
    forall i | 0 <= i < |lines|
      ensures '\n' !in lines[i]
    {
      assert Free(t[i], '\n');
      match t[i]
      case Fixed(_) =>
      case Slot(lead, key, tail) =>
        assert '\n' !in value(key);
    }
    SplitJoin(lines, '\n');
  }
}

=== FILE: text.dfy ===
/** The JavaScript string and array built-ins the generators rely on
    (`startsWith`, `includes`, `join`, `split` on one character, `trim`,
    `toLowerCase`, `toUpperCase`), stated over `string == seq<char>`. */
module Text {

  /** `s.startsWith(p)`. */
  predicate StartsWith(s: string, p: string) {
    |p| <= |s| && s[..|p|] == p
  }

  /** `s.includes(t)`: `t` starts at some position of `s`. */
  predicate Contains(s: string, t: string)
    decreases |s|
  {
    StartsWith(s, t) || (|s| > 0 && Contains(s[1..], t))
  }

  lemma ContainsSelf(s: string)
    ensures Contains(s, s)
  {
    assert s[..|s|] == s;
  }

  /** Whatever `s` contains, `s + r` contains too. */
  lemma {:induction false} ContainsExtendRight(s: string, r: string, t: string)
    requires Contains(s, t)
    ensures Contains(s + r, t)
    decreases |s|
  {
    if StartsWith(s, t) {
      assert (s + r)[..|t|] == s[..|t|];
    } else {
      ContainsExtendRight(s[1..], r, t);
      assert (s + r)[1..] == s[1..] + r;
    }
  }

  /** Whatever `s` contains, `l + s` contains too. */
  lemma {:induction false} ContainsExtendLeft(l: string, s: string, t: string)
    requires Contains(s, t)
    ensures Contains(l + s, t)
    decreases |l|
  {
    if |l| > 0 {
      ContainsExtendLeft(l[1..], s, t);
      assert (l + s)[1..] == l[1..] + s;
    } else {
      assert l + s == s;
    }
  }

  /** An interpolated value occurs in the text built around it. */
  lemma ContainsInfix(l: string, t: string, r: string)
    ensures Contains(l + t + r, t)
  {
    ContainsSelf(t);
    ContainsExtendRight(t, r, t);
    ContainsExtendLeft(l, t + r, t);
    assert l + t + r == l + (t + r);
  }

  lemma {:induction false} ContainsTransitive(s: string, m: string, t: string)
    requires Contains(s, m) && Contains(m, t)
    ensures Contains(s, t)
    decreases |s|
  {
    if StartsWith(s, m) {
      assert s == m + s[|m|..];
      ContainsExtendRight(m, s[|m|..], t);
    } else {
      ContainsTransitive(s[1..], m, t);
    }
  }

  /** `xs.join(sep)`. */
  function Join(xs: seq<string>, sep: string): string
    decreases |xs|
  {
    if |xs| == 0 then ""
    else if |xs| == 1 then xs[0]
    else xs[0] + sep + Join(xs[1..], sep)
  }

  /** Every joined element occurs in the joined text. */
  lemma {:induction false} JoinContains(xs: seq<string>, sep: string, k: nat, line: string)
    requires k < |xs| && xs[k] == line
    ensures Contains(Join(xs, sep), line)
    decreases |xs|
  {
    if |xs| == 1 {
      ContainsSelf(line);
    } else if k == 0 {
      ContainsSelf(line);
      ContainsExtendRight(line, sep + Join(xs[1..], sep), line);
      assert Join(xs, sep) == line + (sep + Join(xs[1..], sep));
    } else {
      JoinContains(xs[1..], sep, k - 1, line);
      ContainsExtendLeft(xs[0] + sep, Join(xs[1..], sep), line);
    }
  }

  /** How many times `c` occurs in `s`. */
  function Occurrences(s: string, c: char): nat
    decreases |s|
  {
    if |s| == 0 then 0 else (if s[0] == c then 1 else 0) + Occurrences(s[1..], c)
  }

  /** `s.split(c)` for a one-character separator: the pieces between the
      occurrences of `c`, always one more piece than there are separators. */
  function Split(s: string, c: char): (parts: seq<string>)
    ensures |parts| == Occurrences(s, c) + 1
    ensures forall i :: 0 <= i < |parts| ==> c !in parts[i]
    decreases |s|
  {
    if |s| == 0 then [""]
    else
      var rest := Split(s[1..], c);
      if s[0] == c then [""] + rest
      else [[s[0]] + rest[0]] + rest[1..]
  }

  /** Joining the pieces back with the separator gives the original text. */
  lemma {:induction false} JoinSplit(s: string, c: char)
    ensures Join(Split(s, c), [c]) == s
    decreases |s|
  {
    if |s| > 0 {
      var rest := Split(s[1..], c);
      JoinSplit(s[1..], c);
      assert s == [s[0]] + s[1..];
      if s[0] == c {
        var parts := [""] + rest;
        assert parts[1..] == rest;
        assert Join(parts, [c]) == "" + [c] + Join(rest, [c]);
      } else {
        var parts := [[s[0]] + rest[0]] + rest[1..];
        if |rest| == 1 {
          assert Join(rest, [c]) == rest[0];
          assert Join(parts, [c]) == [s[0]] + rest[0];
        } else {
          assert parts[1..] == rest[1..];
          assert Join(rest, [c]) == rest[0] + [c] + Join(rest[1..], [c]);
          assert Join(parts, [c]) == ([s[0]] + rest[0]) + [c] + Join(rest[1..], [c]);
        }
      }
    }
  }

  /** The pieces hold no character the text lacks. */
  lemma {:induction false} SplitKeeps(s: string, c: char, d: char)
    requires d !in s
    ensures forall i :: 0 <= i < |Split(s, c)| ==> d !in Split(s, c)[i]
    decreases |s|
  {
    if |s| > 0 {
      assert s == [s[0]] + s[1..];
      SplitKeeps(s[1..], c, d);
    }
  }

  /** A separator-free piece followed by the separator splits off as the
      first part. */
  lemma {:induction false} SplitSeparated(x: string, r: string, c: char)
    requires c !in x
    ensures Split(x + [c] + r, c) == [x] + Split(r, c)
    decreases |x|
  {
    var s := x + [c] + r;
    if |x| == 0 {
      assert s == [c] + r;
      assert s[1..] == r;
    } else {
      SplitSeparated(x[1..], r, c);
      assert s[0] == x[0] && s[0] != c;
      assert s[1..] == x[1..] + [c] + r;
      var rest := Split(s[1..], c);
      assert rest == [x[1..]] + Split(r, c);
      assert rest[0] == x[1..] && rest[1..] == Split(r, c);
      assert [s[0]] + rest[0] == x;
    }
  }

  lemma {:induction false} SplitFree(x: string, c: char)
    requires c !in x
    ensures Split(x, c) == [x]
    decreases |x|
  {
    if |x| > 0 {
      SplitFree(x[1..], c);
      assert x == [x[0]] + x[1..];
    }
  }

  /** Splitting a join recovers the elements, provided none of them contains
      the separator: a rendered list has exactly one line per entry. */
  lemma {:induction false} SplitJoin(xs: seq<string>, c: char)
    requires |xs| > 0
    requires forall i :: 0 <= i < |xs| ==> c !in xs[i]
    ensures Split(Join(xs, [c]), c) == xs
    decreases |xs|
  {
    if |xs| == 1 {
      SplitFree(xs[0], c);
    } else {
      SplitJoin(xs[1..], c);
      SplitSeparated(xs[0], Join(xs[1..], [c]), c);
    }
  }

  /** The ECMAScript white-space and line-terminator code points that
      `String.prototype.trim` removes. */
  predicate IsSpace(ch: char) {
    ch == '\t' || ch == '\n' || ch == '\U{000B}' || ch == '\U{000C}' || ch == '\r'
    || ch == ' ' || ch == '\U{00A0}' || ch == '\U{1680}'
    || ('\U{2000}' <= ch <= '\U{200A}')
    || ch == '\U{2028}' || ch == '\U{2029}' || ch == '\U{202F}' || ch == '\U{205F}'
    || ch == '\U{3000}' || ch == '\U{FEFF}'
  }

  /** Drops the leading white space: the result is the suffix of `s` that
      starts at its first non-space character. */
  function TrimStart(s: string): (r: string)
    ensures |r| <= |s| && r == s[|s| - |r|..]
    ensures forall k :: 0 <= k < |s| - |r| ==> IsSpace(s[k])
    ensures r == "" || !IsSpace(r[0])
    decreases |s|
  {
    if |s| > 0 && IsSpace(s[0]) then TrimStart(s[1..]) else s
  }

  /** Drops the trailing white space: the result is the prefix of `s` that
      ends at its last non-space character. */
  function TrimEnd(s: string): (r: string)
    ensures |r| <= |s| && r == s[..|r|]
    ensures forall k :: |r| <= k < |s| ==> IsSpace(s[k])
    ensures r == "" || !IsSpace(r[|r| - 1])
    decreases |s|
  {
    if |s| > 0 && IsSpace(s[|s| - 1]) then TrimEnd(s[..|s| - 1]) else s
  }

  /** `s.trim()`. */
  function Trim(s: string): string {
    TrimEnd(TrimStart(s))
  }

  /** Neither starts nor ends with white space. */
  predicate Trimmed(s: string) {
    s == "" || (!IsSpace(s[0]) && !IsSpace(s[|s| - 1]))
  }

  /** Trimming text without surrounding white space changes nothing. */
  lemma TrimTrimmed(s: string)
    requires Trimmed(s)
    ensures Trim(s) == s
  {
    assert TrimStart(s) == s;
    assert TrimEnd(s) == s;
  }

  /** Trimming leaves neither leading nor trailing white space, and so
      trimming again changes nothing. */
  lemma TrimIdempotent(s: string)
    ensures Trimmed(Trim(s))
    ensures Trim(Trim(s)) == Trim(s)
  {
    var u := TrimStart(s);
    var t := TrimEnd(u);
    if t != "" {
      assert t == u[..|t|];
      assert t[0] == u[0] && !IsSpace(u[0]);
      assert !IsSpace(t[|t| - 1]);
    }
    assert Trimmed(t);
    TrimTrimmed(t);
  }

  /** Trimming keeps a slice of the text, so it adds no character. */
  lemma TrimKeeps(s: string, c: char)
    requires c !in s
    ensures c !in Trim(s)
  {
    var u := TrimStart(s);
    assert u == s[|s| - |u|..];
    assert c !in u;
    var t := TrimEnd(u);
    assert t == u[..|t|];
  }

  /** ASCII lower-casing of one character. */
  function LowerChar(ch: char): char {
    if 'A' <= ch <= 'Z' then (ch as int + 32) as char else ch
  }

  /** ASCII upper-casing of one character. */
  function UpperChar(ch: char): char {
    if 'a' <= ch <= 'z' then (ch as int - 32) as char else ch
  }

  /** `s.toLowerCase()` restricted to ASCII letters. */
  function ToLower(s: string): (r: string)
    ensures |r| == |s|
    ensures forall i :: 0 <= i < |s| ==> r[i] == LowerChar(s[i])
  {
    seq(|s|, i requires 0 <= i < |s| => LowerChar(s[i]))
  }

  /** `s.toUpperCase()` restricted to ASCII letters. */
  function ToUpper(s: string): (r: string)
    ensures |r| == |s|
    ensures forall i :: 0 <= i < |s| ==> r[i] == UpperChar(s[i])
  {
    seq(|s|, i requires 0 <= i < |s| => UpperChar(s[i]))
  }

  /** Same letters, ignoring ASCII case. */
  predicate EqualsIgnoreCase(a: string, b: string) {
    |a| == |b| && forall i :: 0 <= i < |a| ==> LowerChar(a[i]) == LowerChar(b[i])
  }

  /** Text that lower-casing leaves as it is. */
  predicate IsLower(s: string) {
    forall i :: 0 <= i < |s| ==> LowerChar(s[i]) == s[i]
  }

  /** Lower-casing `s` yields the lower-case key `k` exactly when `s` spells
      `k` in some mix of cases. */
  lemma ToLowerMatches(s: string, k: string)
    requires IsLower(k)
    ensures ToLower(s) == k <==> EqualsIgnoreCase(s, k)
  {
    if EqualsIgnoreCase(s, k) {
      assert forall i :: 0 <= i < |s| ==> ToLower(s)[i] == k[i];
    }
  }

  /** `prefix + x` for every element, in order. */
  function Prefixed(prefix: string, xs: seq<string>): (r: seq<string>)
    ensures |r| == |xs|
    ensures forall i :: 0 <= i < |xs| ==> r[i] == prefix + xs[i]
  {
    seq(|xs|, i requires 0 <= i < |xs| => prefix + xs[i])
  }
}

=== FILE: wrappers.dfy ===
/** Optional values: an absent JavaScript argument or query parameter is `None`. */
module Wrappers {

  datatype Option<+T> = None | Some(value: T) {

    /** The value, or `default` when absent: a destructuring default `x = d`
        and the `??` operator both behave like this on `undefined`. */
    function GetOr(default: T): T {
      match this
      case Some(v) => v
      case None => default
    }
  }

  /** JavaScript truthiness of an optional string: present and non-empty. */
  predicate Truthy(s: Option<string>) {
    s.Some? && s.value != ""
  }
}
